=== FILE: README.md ===
# Konvos authentication, session and channel-row model

Konvos is a chat client: a React single-page application over a hosted chat
and video service, with a small Express service that registers users and
logs them in against a local `users` table and hands out chat tokens. This
project models, in Dafny, the parts of it that have behaviour one can state:

- the server's `register` and `login` handlers, as a state machine over the
  credential table (`map<id, {name, hash, image}>`), with bcrypt, the chat
  provider's server client and database errors as parameters (`ServerAuth`);
- the sign-in form's submit handler: the user id derived from the typed
  username, the defaults used on sign-up, and the error text shown
  (`AuthPage`, with the generated avatar URL in `Dicebear`);
- the client's authentication context: how a backend reply is accepted,
  rethrown or replaced by an insecure dev-mode user, which token is used to
  connect, and the state kept in memory and under `konvos_user` in local
  storage across start-up, sign-in, connection failure and logout
  (`AuthContext`), with the whole path from server response to the text the
  form shows in `Flows`;
- the avatar's initials (`Avatar`) and the pure parts of one row of the
  mobile channel list: last message, displayed name, message preview, unread
  badge and delivery tick (`ChannelPreview`).

JavaScript strings are sequences of UTF-16 code units (`JsText.JsString`),
because `length`, `substring` and `word[0]` count code units: the 📎 of the
attachment label is two of them. `undefined` is `None`.

The server neither lower-cases nor trims ids
(`ServerAuth.IdsAreNotNormalised`: "CarlOS" and "carlos" are two users).
Login has no fallback to the chat provider for unknown ids: they get 401.
Login does not re-upsert the user with the provider: its only provider call
is `createToken` (`ServerAuth.Login`). All of the id
normalisation the application does happens in the browser, in
`AuthPage.DeriveId`, and it does not trim either.

Properties worth noting that the proofs bring out:

- a 400 "Missing credentials" from the server is not shown to the user: the
  client signs in a dev-mode user instead (`Flows.MissingPasswordSignsInDevUser`);
- a provider failure after the insert leaves the row on the server (so a
  retry gets 409) while the client signs in as a dev-mode user without a
  backend token (`Flows.ProviderFailureSignsInDevUser`);
- registration echoes the submitted `image` (possibly absent) while the
  table and a later login carry `image || ''` (`ServerAuth.RegisterThenLogin`);
- when the video client fails after the chat client connected, the user is
  cleared but the chat client stays set (`AuthContext.Connect`).

## Model

| member | source | states |
|---|---|---|
| JsText.LowerCase | src/pages/Auth.tsx:25 | `toLowerCase` keeps the length and lowers each ASCII letter, leaving whitespace whitespace and nothing upper-case |
| JsText.UpperCase | src/components/common/Avatar.tsx:32 | `toUpperCase` keeps the length and raises each ASCII letter |
| JsText.CaseRoundTrip | src/components/common/Avatar.tsx:32 | lowering a capital and raising the result gives the capital back, and the other way round |
| JsText.Decimal | src/components/stream/MobileChannelList.tsx:151 | a rendered count is a non-empty string of decimal digits |
| JsText.DecimalRoundTrip | src/components/stream/MobileChannelList.tsx:151 | reading the digits of a rendered count gives the count back |
| JsText.DecimalShape | src/components/stream/MobileChannelList.tsx:151 | a rendering starts with 0 only for zero, has one digit exactly below 10 and at most two below 100 |
| Dicebear.AvatarUrl | src/pages/Auth.tsx:30 | the default avatar is the DiceBear prefix followed by the seed, unencoded |
| Dicebear.AvatarUrlInjective | src/context/AuthContext.tsx:131 | two seeds give the same avatar URL exactly when they are equal |
| ServerAuth.MintToken | server/src/handlers/auth.ts:38-57 | a token is minted exactly when the credentials are configured and neither the upsert nor `createToken` fails; it is the provider's token for the id; missing credentials throw before any call; otherwise the calls are the upsert (when asked for) and then `createToken`, stopping at the first that throws, and the message thrown is the upsert's, or else `createToken`'s |
| ServerAuth.Register | server/src/handlers/auth.ts:15-61 | 400 exactly when id, name or password is missing or empty, with no effect; a failed lookup is 500 "Database error" and a failed insert 500 "Failed to create user", both with no effect; 409 exactly when the id is already a key, compared exactly, with no effect; existing rows are never changed; the only possible change adds the requested id with the hash and `image \|\| ''`; 200, with a session, exactly when the fields are present, the lookup succeeds, the id is new, the insert succeeds and the provider upserts and mints |
| ServerAuth.Login | server/src/handlers/auth.ts:63-94 | the table is never changed; 400 exactly when id or password is missing or empty; a failed lookup is 500 "Database error"; 401 exactly for an unknown id or a password the stored hash does not match, with one body for both and no provider call; the only provider call a login ever makes is `createToken` for the id, never an upsert; 200 exactly for a stored id whose hash the password matches when the provider is configured and mints, the session carrying the stored row's id, name and image and the minted token; otherwise 500 "Failed to generate token" with the thrown message |
| ServerAuth.RegisterInserts | server/src/handlers/auth.ts:31-53 | past the checks, exactly one row is added; with a working provider the response echoes the raw image and the calls are upsert then token |
| ServerAuth.ProviderFailureKeepsRow | server/src/handlers/auth.ts:35-57 | a provider failure after the insert answers 500 "Failed to create user in Stream" with the thrown message, and the row remains |
| ServerAuth.RegisterTwice | server/src/handlers/auth.ts:22-34 | after a registration that inserted its row, registering the same id again is 409 and changes nothing |
| ServerAuth.LoginHidesUnknownIds | server/src/handlers/auth.ts:70-78 | an unknown id and a wrong password give identical outcomes, 401 "Invalid credentials" |
| ServerAuth.RegisterThenLogin | server/src/handlers/auth.ts:32-88 | with a sound hash, logging in with the registered id and password succeeds with the same id and name, image `image \|\| ''`, and a freshly minted token |
| ServerAuth.IdsAreNotNormalised | server/src/handlers/auth.ts:22-25 | "CarlOS" registers as "CarlOS", a repeat is 409, while "carlos" is unknown to login and free to register |
| AuthPage.ReplaceWhitespaceRuns | src/pages/Auth.tsx:25 | the replacement never lengthens the string |
| AuthPage.ReplaceByScan | src/pages/Auth.tsx:25 | a single left-to-right scan that emits `_` at the start of each whitespace run computes the replacement |
| AuthPage.DeriveIdByScan | src/pages/Auth.tsx:25 | lower-casing then scanning computes the derived id |
| AuthPage.ReplaceLeavesNoWhitespace | src/pages/Auth.tsx:25 | no whitespace survives the replacement |
| AuthPage.ReplaceKeepsLowerCase | src/pages/Auth.tsx:25 | the replacement introduces no upper-case letter |
| AuthPage.ReplaceWithoutWhitespace | src/pages/Auth.tsx:25 | a string without whitespace is left unchanged |
| AuthPage.DeriveId | src/pages/Auth.tsx:25 | the derived id has no whitespace, no upper-case ASCII letter, and is no longer than the username |
| AuthPage.DeriveIdIdempotent | src/pages/Auth.tsx:25 | deriving an id from a derived id changes nothing |
| AuthPage.ReplaceSplitsAtRun | src/pages/Auth.tsx:25 | each maximal whitespace run becomes exactly one `_` between the replacements of what precedes and follows it |
| AuthPage.ReplaceBeforeRun | src/pages/Auth.tsx:25 | text that does not end in whitespace is replaced on its own in front of a whitespace run |
| AuthPage.LeadingWhitespaceKept | src/pages/Auth.tsx:25 | leading whitespace is not trimmed: it becomes a leading `_` |
| AuthPage.TrailingWhitespaceKept | src/pages/Auth.tsx:25 | trailing whitespace is not trimmed: it becomes a trailing `_` |
| AuthPage.DeriveIdOfTwoWords | src/pages/Auth.tsx:25 | two space-separated words become both words lower-cased joined by `_` |
| AuthPage.Submit | src/pages/Auth.tsx:19-32 | the call uses the derived id and the password; sign-in calls login; sign-up uses the avatar URL if non-empty else the DiceBear URL of the id, and the full name if non-empty else the raw username |
| AuthPage.SubmitModesAgree | src/pages/Auth.tsx:24-31 | for the same form, sign-in sends the id and password that sign-up registers, and a username typed in other ASCII case sends the same call |
| AuthPage.DeriveIdIgnoresCase | src/pages/Auth.tsx:25 | usernames equal up to ASCII case give the same id |
| AuthPage.SignUpDefaults | src/pages/Auth.tsx:25-31 | "Bob Smith" with no full name or avatar registers id "bob_smith", name "Bob Smith" and the id's DiceBear avatar |
| AuthPage.ErrorText | src/pages/Auth.tsx:36 | the shown error is the thrown message if non-empty, else "Authentication failed", and never empty |
| AuthContext.ReplyOf | src/context/AuthContext.tsx:105-115 | an ok reply carries the response's user and token; otherwise the body's error |
| AuthContext.FailureMessage | src/context/AuthContext.tsx:112-115 | the thrown message is the body's error if non-empty, the fallback otherwise, or the network error's message |
| AuthContext.ResolveLogin | src/context/AuthContext.tsx:96-131 | accept exactly an ok reply, as `{...user, token}`; rethrow exactly a failure whose message is "Invalid credentials"; anything else gives the dev user `{id, name: id, image: DiceBear(id)}` |
| AuthContext.ResolveRegister | src/context/AuthContext.tsx:137-170 | accept exactly an ok reply; rethrow exactly "User already exists"; anything else gives `{id, name, image}` as submitted |
| AuthContext.ChooseToken | src/context/AuthContext.tsx:62 | the backend token when present and non-empty, otherwise a dev token for the id |
| AuthContext.Connect | src/context/AuthContext.tsx:49-94 | never leaves `connecting` set; without an API key nothing else changes; on success both clients run as the user with the chosen token; on failure the stored and in-memory user are cleared, the video client is not set, and a chat client that connected stays |
| AuthContext.Init | src/context/AuthContext.tsx:34-47 | start-up leaves storage and memory consistent; nothing or unparseable data gives the signed-out state with storage cleared; a stored user is restored when its connection does not fail, and a failed connection clears it from storage and memory |
| AuthContext.SignIn | src/context/AuthContext.tsx:107-110 | storage and memory stay consistent; if the connection does not fail both hold the new user, and if it fails neither holds a user |
| AuthContext.Apply | src/context/AuthContext.tsx:116-134 | a rethrow leaves the session unchanged and reports the message; acceptance and dev mode sign the user in |
| AuthContext.Login | src/context/AuthContext.tsx:96-135 | storage and memory stay consistent; an error escapes exactly when the resolution is a rethrow, and then the session is unchanged; otherwise the resolved user is set and stored when the connection does not fail, and no user is set or stored when it fails |
| AuthContext.Register | src/context/AuthContext.tsx:137-174 | storage and memory stay consistent; an error escapes exactly when the resolution is a rethrow, and then the session is unchanged; otherwise the resolved user is set and stored when the connection does not fail, and no user is set or stored when it fails |
| AuthContext.Logout | src/context/AuthContext.tsx:176-187 | clears the stored user, the user, the chat client and the video client |
| Flows.InvalidCredentialsReachTheForm | src/context/AuthContext.tsx:116-122 | a server 401 is rethrown with the session unchanged, and the form shows "Invalid credentials" |
| Flows.MissingPasswordSignsInDevUser | src/context/AuthContext.tsx:116-134 | a login the server rejects with 400 for a missing password signs in the dev user named by the id |
| Flows.DuplicateReachesTheForm | src/context/AuthContext.tsx:157-162 | a duplicate registration is rethrown with the session unchanged, and the form shows "User already exists" |
| Flows.ProviderFailureSignsInDevUser | src/context/AuthContext.tsx:157-173 | a provider failure after the insert keeps the server row and signs in the submitted user in dev mode, without a token |
| Flows.BackendLoginThenLogout | src/context/AuthContext.tsx:105-111 | a backend login that connects stores exactly the user it sets, connects both clients with the backend token, and logout returns to the signed-out state |
| Flows.FormSignUpThenSignIn | src/pages/Auth.tsx:24-31 | with a sound hash and a working provider, signing up through the form with a fresh username and then signing in with the same username and password both succeed, and the login returns the registered id, name and image |
| Avatar.Split | src/components/common/Avatar.tsx:29 | splitting on spaces always gives at least one piece |
| Avatar.SplitJoin | src/components/common/Avatar.tsx:29 | joining the pieces with spaces gives the name back |
| Avatar.SplitPiecesHaveNoSpace | src/components/common/Avatar.tsx:29 | no piece of the split contains a space |
| Avatar.FirstUnitsAreWordStarts | src/components/common/Avatar.tsx:29-31 | the first units of the pieces are exactly the code units that begin a word; empty pieces contribute nothing |
| Avatar.WordStartsOfWord | src/components/common/Avatar.tsx:30 | a word without spaces contributes exactly its first code unit |
| Avatar.WordStartsAfterSpace | src/components/common/Avatar.tsx:29-31 | a space separates: the starts of `a`, a space and `b` are those of `a` then those of `b` |
| Avatar.DoubledSpaceAddsNoStart | src/components/common/Avatar.tsx:29-31 | a doubled space adds no word start |
| Avatar.DoubledSpaceChangesNoInitial | src/components/common/Avatar.tsx:29-33 | the empty word between consecutive spaces changes no initial |
| Avatar.Initials | src/components/common/Avatar.tsx:27-34 | the initials have at most two code units and no lower-case ASCII letter |
| Avatar.InitialsAreWordStarts | src/components/common/Avatar.tsx:27-34 | the initials are the first two word starts of the name, upper-cased |
| Avatar.InitialsOfDefaultName | src/components/common/Avatar.tsx:41 | the fallback name "U" has the initials "U" |
| Avatar.Render | src/components/common/Avatar.tsx:24-53 | initials exactly when `src` is empty or the image failed to load, else the image; the initials are those of `alt`, or "U" for an empty `alt`; size defaults to `md` |
| ChannelPreview.LastMessage | src/components/stream/MobileChannelList.tsx:19 | absent exactly for no messages, otherwise the final message |
| ChannelPreview.LastMessageOfAppend | src/components/stream/MobileChannelList.tsx:19 | a message just appended is the last message |
| ChannelPreview.FirstOther | src/components/stream/MobileChannelList.tsx:25 | the first member who is not the current user, preceded only by the current user; absent exactly when every member is the current user |
| ChannelPreview.GetDisplayInfo | src/components/stream/MobileChannelList.tsx:22-39 | with two members one of whom is someone else, that member's name (falling back to the user id), image and online flag; otherwise the channel's name or "Group Chat", its image, and offline |
| ChannelPreview.OneToOneShowsTheOther | src/components/stream/MobileChannelList.tsx:24-31 | a one-to-one channel shows the other member whichever order the two members are listed in |
| ChannelPreview.MessagePreview | src/components/stream/MobileChannelList.tsx:61-76 | "No messages yet" without a message; an attachment replaces the text; over 35 code units it keeps 35 and appends "..."; never longer than 38 |
| ChannelPreview.PreviewIsPrefix | src/components/stream/MobileChannelList.tsx:71-75 | the preview is the text or its first 35 units plus "...", and the same whoever wrote the message |
| ChannelPreview.AttachmentPreview | src/components/stream/MobileChannelList.tsx:67-69 | a message with attachments previews as the 13-unit "📎 Attachment", whatever its text |
| ChannelPreview.UnreadBadge | src/components/stream/MobileChannelList.tsx:149-152 | hidden exactly at 0, "99+" above 99, the count's digits otherwise |
| ChannelPreview.UnreadBadgeReadsBack | src/components/stream/MobileChannelList.tsx:151 | a badge for 1 to 99 is one or two digits that read back as the count, never "99+" |
| ChannelPreview.DeliveryTick | src/components/stream/MobileChannelList.tsx:134-141 | a tick exactly on the current user's own last message, double exactly when its status is "received" |
| ChannelPreview.TextLineOf | src/components/stream/MobileChannelList.tsx:134-146 | an empty channel shows "No messages yet" without a tick; otherwise the tick and the preview are those of the newest message, and a tick only when it is the current user's |
| ChannelPreview.NewestMessageShows | src/components/stream/MobileChannelList.tsx:134-146 | an appended message alone decides the tick and the preview, whatever came before it |
| ChannelPreview.OwnReceivedMessageShows | src/components/stream/MobileChannelList.tsx:134-146 | after the current user's own "received" message the row shows a double tick and that message's preview, whatever came before |
| ChannelPreview.OtherMessageClearsTick | src/components/stream/MobileChannelList.tsx:134-141 | a newest message from someone else shows no tick |
| ChannelPreview.RowAvatar | src/components/stream/MobileChannelList.tsx:116 | the row's avatar is medium and shows initials exactly when there is no image or it failed to load |
| ChannelPreview.UnnamedGroupShowsInitials | src/components/stream/MobileChannelList.tsx:35 | a group channel without name or image shows the initials "GC" |
| ChannelPreview.GroupChatInitials | src/components/common/Avatar.tsx:27-34 | the fallback name "Group Chat" has the initials "GC" |

## Left out

- Case mapping covers the ASCII letters only; `toLowerCase` and `toUpperCase` on other scripts (including length-changing mappings such as `ß`) are not modelled.
- Request bodies are modelled with fields that are strings or absent; other JSON values (numbers, booleans, `null`) in `id`, `name` or `password` are not modelled.
- bcrypt is abstract: `genSalt` becomes a salt parameter, and `hash`/`compare` are a pair of functions assumed only to match a password against its own hash. A rejection by `genSalt` or `hash` inside the database callback, which leaves the request unanswered, is not modelled.
- Requests are handled one at a time; the race between the duplicate check and the insert, where the database's uniqueness constraint makes the loser's insert fail, is covered only as the insert-failure parameter (500 "Failed to create user").
- The `users` table's schema file, server/schema.sql, is not part of this model; id comparison is taken to be exact (SQLite's default binary collation).
- Express wiring (server/src/index.ts), database initialisation (server/src/init-db.ts) and console logging are not modelled.
- The chat and video SDKs are parameters: whether credentials or the API key are configured, whether `upsertUser`, `createToken`, `connectUser` or the video client fail, the tokens they mint, `countUnread`, `client.userID` (taken to be set) and the order of `channel.state.members`.
- AuthContext.Logout: when `disconnectUser` rejects, the source stops before clearing anything; the model assumes both disconnects succeed.
- AuthContext.Connect: the intermediate `isConnecting = true` state and the interleaving of asynchronous state updates are not modelled, only the state after the attempt.
- Local storage holds the user as JSON; the model stores the user itself, taking `JSON.stringify`/`JSON.parse` to round-trip, and does not model a stored `null` or a failing `setItem`.
- The dev-mode `alert` and warnings, shown only when a password was given, do not change state and are left out.
- Every `formatTime` (MobileChannelList.tsx, ChatItem.tsx, MessageBubble.tsx) depends on the clock and locale and is left out.
- The row's archive menu (`channel.hide`/`show`), click handling and the unread colour of the time stamp are UI effects and are left out.
- src/components/stream/custom-channel-preview.tsx contains unresolved merge-conflict markers and duplicates the row helpers; it is not part of this model.
- The avatar's CSS classes (`sizeClasses`, `textSizeClasses`) are styling; only the choice of size, defaulting to `md`, is modelled.
- Every other view (chat view, chat list, user search with its debounce timer, call interface, channel list header, routing) and the mock fixtures are presentation or SDK plumbing and are left out.

=== FILE: auth_context.dfy ===
/** The client's authentication context (src/context/AuthContext.tsx): how
    the outcome of a backend call is turned into a session — accepted,
    rethrown to the form, or replaced by an insecure dev-mode user — and the
    small state it keeps: the user in memory, the copy under `konvos_user`
    in local storage, and the chat and video clients.

    The backend reply, the presence of the chat API key and the result of
    connecting to the chat provider are parameters. */
module AuthContext {
  import opened Optional
  import opened JsText
  import Dicebear
  import ServerAuth

  /** The client's user object; `token` is absent for dev-mode users. */
  datatype User = User(id: JsString, name: JsString, image: Option<JsString>, token: Option<JsString>)

  /** What a `fetch` to the backend leads to. */
  datatype Reply =
    | Ok(user: ServerAuth.PublicUser, token: JsString)  // `res.ok`: the body's user and token
    | NotOk(error: Option<JsString>)                     // otherwise: the body's `error` field
    | Unreachable(message: JsString)                     // `fetch` or `res.json()` threw this message

  /** The reply to one of the server's responses. */
  function ReplyOf(r: ServerAuth.Response): (reply: Reply)
    ensures reply.Ok? <==> r.body.SessionBody?
    ensures reply.Ok? ==> reply.user == r.body.user && reply.token == r.body.token
    ensures reply.NotOk? ==> reply.error == Some(r.body.error)
  {
    match r.body
    case SessionBody(u, t) => Ok(u, t)
    case ErrorBody(e, _) => NotOk(Some(e))
  }

  const LoginFailed := Lit("Login failed")
  const RegistrationFailed := Lit("Registration failed")

  /** The message of the error the `try` block ends with when the reply is
      not ok: `err.error || fallback`, or whatever `fetch` threw. */
  function FailureMessage(reply: Reply, fallback: JsString): (m: JsString)
    requires !reply.Ok?
    ensures reply.NotOk? && Truthy(reply.error) ==> m == reply.error.value
    ensures reply.NotOk? && !Truthy(reply.error) ==> m == fallback
    ensures reply.Unreachable? ==> m == reply.message
  {
    match reply
    case NotOk(e) => Or(e, fallback)
    case Unreachable(m) => m
  }

  datatype Resolution =
    | Rethrow(message: JsString)  // the error propagates to the form
    | Accept(user: User)          // the backend's user, with its token
    | DevMode(user: User)         // the insecure fallback user

  /** The user a successful reply yields: `{...data.user, token: data.token}`. */
  function BackendUser(u: ServerAuth.PublicUser, token: JsString): User {
    User(u.id, u.name, u.image, Some(token))
  }

  /** `login` up to the state change (src/context/AuthContext.tsx:96-131):
      only a failure whose message is exactly "Invalid credentials" reaches
      the form; every other failure signs in as a dev-mode user named by
      its id. */
  function ResolveLogin(id: JsString, reply: Reply): (r: Resolution)
    ensures r.Accept? <==> reply.Ok?
    ensures reply.Ok? ==> r.user == BackendUser(reply.user, reply.token)
    ensures r.Rethrow? <==>
              !reply.Ok? && FailureMessage(reply, LoginFailed) == ServerAuth.InvalidCredentials
    ensures r.Rethrow? ==> r.message == ServerAuth.InvalidCredentials
    ensures r.DevMode? ==> r.user == User(id, id, Some(Dicebear.AvatarUrl(id)), None)
  {
    if reply.Ok? then Accept(BackendUser(reply.user, reply.token))
    else if FailureMessage(reply, LoginFailed) == ServerAuth.InvalidCredentials then
      Rethrow(ServerAuth.InvalidCredentials)
    else DevMode(User(id, id, Some(Dicebear.AvatarUrl(id)), None))
  }

  /** `register` up to the state change (src/context/AuthContext.tsx:137-170):
      only "User already exists" reaches the form; every other failure signs
      in as a dev-mode user with the submitted name and image. */
  function ResolveRegister(id: JsString, name: JsString, image: Option<JsString>, reply: Reply): (r: Resolution)
    ensures r.Accept? <==> reply.Ok?
    ensures reply.Ok? ==> r.user == BackendUser(reply.user, reply.token)
    ensures r.Rethrow? <==>
              !reply.Ok? && FailureMessage(reply, RegistrationFailed) == ServerAuth.UserExists
    ensures r.Rethrow? ==> r.message == ServerAuth.UserExists
    ensures r.DevMode? ==> r.user == User(id, name, image, None)
  {
    if reply.Ok? then Accept(BackendUser(reply.user, reply.token))
    else if FailureMessage(reply, RegistrationFailed) == ServerAuth.UserExists then
      Rethrow(ServerAuth.UserExists)
    else DevMode(User(id, name, image, None))
  }

  /** The token `connectUser` uses. */
  datatype Token = BackendToken(value: JsString) | DevToken(userId: JsString)

  /** A chat or video client, connected as `userId` with `token`. */
  datatype Connection = Connection(userId: JsString, token: Token)

  /** The value stored under `konvos_user`. */
  datatype Stored = NothingStored | StoredUser(user: User) | Unparseable

  datatype Session = Session(
    user: Option<User>,
    stored: Stored,
    client: Option<Connection>,
    videoClient: Option<Connection>,
    connecting: bool)

  const SignedOut := Session(None, NothingStored, None, None, false)

  /** How the attempt to connect to the chat provider goes. */
  datatype ConnectResult =
    | Connected
    | ChatConnectFails   // `connectUser` rejects
    | VideoClientFails   // the chat client connected, then the video client's constructor threw

  datatype Env = Env(apiKeySet: bool, connect: ConnectResult)

  /** `userData.token || chatClient.devToken(userData.id)`
      (src/context/AuthContext.tsx:62). */
  function ChooseToken(u: User): (t: Token)
    ensures Truthy(u.token) <==> t.BackendToken?
    ensures t.BackendToken? ==> t.value == u.token.value
    ensures t.DevToken? ==> t.userId == u.id
  {
    if Truthy(u.token) then BackendToken(u.token.value) else DevToken(u.id)
  }

  /** `connectUser(u)` (src/context/AuthContext.tsx:49-94). */
  function Connect(s: Session, u: User, env: Env): (s': Session)
    ensures !s'.connecting
    ensures !env.apiKeySet ==> s' == s.(connecting := false)
    // success: both clients run as the user, with the chosen token
    ensures env.apiKeySet && env.connect == Connected ==>
              && s'.client == Some(Connection(u.id, ChooseToken(u)))
              && s'.videoClient == s'.client
              && s'.user == s.user && s'.stored == s.stored
    // failure: the stored user and the user in memory are dropped
    ensures env.apiKeySet && env.connect != Connected ==>
              s'.user.None? && s'.stored == NothingStored && s'.videoClient == s.videoClient
    ensures env.apiKeySet && env.connect == ChatConnectFails ==> s'.client == s.client
    ensures env.apiKeySet && env.connect == VideoClientFails ==>
              s'.client == Some(Connection(u.id, ChooseToken(u)))
  {
    if !env.apiKeySet then s.(connecting := false)
    else
      var conn := Connection(u.id, ChooseToken(u));
      match env.connect
      case Connected => s.(client := Some(conn), videoClient := Some(conn), connecting := false)
      case ChatConnectFails => s.(user := None, stored := NothingStored, connecting := false)
      case VideoClientFails =>
        s.(client := Some(conn), user := None, stored := NothingStored, connecting := false)
  }

  /** The stored copy and the user in memory agree. */
  predicate Consistent(s: Session) {
    match s.stored
    case NothingStored => s.user.None?
    case StoredUser(u) => s.user == Some(u)
    case Unparseable => false
  }

  /** The initialisation effect (src/context/AuthContext.tsx:34-47): a
      stored user is restored and connected; unparseable data is removed. */
  function Init(stored: Stored, env: Env): (s: Session)
    ensures Consistent(s)
    ensures !stored.StoredUser? ==> s == SignedOut
    ensures stored.StoredUser? && (!env.apiKeySet || env.connect == Connected) ==>
              s.user == Some(stored.user) && s.stored == stored
    ensures stored.StoredUser? && env.apiKeySet && env.connect != Connected ==>
              s.user.None? && s.stored == NothingStored && s.videoClient.None?
  {
    match stored
    case NothingStored => SignedOut
    case Unparseable => SignedOut
    case StoredUser(u) => Connect(Session(Some(u), stored, None, None, false), u, env)
  }

  /** Store the user, set it and connect it. */
  function SignIn(s: Session, u: User, env: Env): (s': Session)
    ensures Consistent(s')
    ensures !env.apiKeySet || env.connect == Connected ==>
              s'.user == Some(u) && s'.stored == StoredUser(u)
    ensures env.apiKeySet && env.connect != Connected ==>
              s'.user.None? && s'.stored == NothingStored
  {
    Connect(s.(user := Some(u), stored := StoredUser(u)), u, env)
  }

  /** A state change together with the message of the error rethrown to
      the caller, if any. */
  datatype Step = Step(session: Session, thrown: Option<JsString>)

  function Apply(s: Session, r: Resolution, env: Env): (st: Step)
    ensures r.Rethrow? ==> st == Step(s, Some(r.message))
    ensures !r.Rethrow? ==> st == Step(SignIn(s, r.user, env), None)
  {
    match r
    case Rethrow(m) => Step(s, Some(m))
    case Accept(u) => Step(SignIn(s, u, env), None)
    case DevMode(u) => Step(SignIn(s, u, env), None)
  }

  /** `login(id, password)`; the password only decides whether an alert is shown. */
  function Login(s: Session, id: JsString, reply: Reply, env: Env): (st: Step)
    ensures Consistent(s) ==> Consistent(st.session)
    ensures st.thrown.Some? <==> ResolveLogin(id, reply).Rethrow?
    ensures ResolveLogin(id, reply).Rethrow? ==> st.session == s
    ensures !ResolveLogin(id, reply).Rethrow? && (!env.apiKeySet || env.connect == Connected) ==>
              st.session.user == Some(ResolveLogin(id, reply).user)
              && st.session.stored == StoredUser(ResolveLogin(id, reply).user)
    ensures !ResolveLogin(id, reply).Rethrow? && env.apiKeySet && env.connect != Connected ==>
              st.session.user.None? && st.session.stored == NothingStored
  {
    Apply(s, ResolveLogin(id, reply), env)
  }

  /** `register(id, name, password, image)`. */
  function Register(s: Session, id: JsString, name: JsString, image: Option<JsString>,
                    reply: Reply, env: Env): (st: Step)
    ensures Consistent(s) ==> Consistent(st.session)
    ensures st.thrown.Some? <==> ResolveRegister(id, name, image, reply).Rethrow?
    ensures ResolveRegister(id, name, image, reply).Rethrow? ==> st.session == s
    ensures !ResolveRegister(id, name, image, reply).Rethrow? && (!env.apiKeySet || env.connect == Connected) ==>
              st.session.user == Some(ResolveRegister(id, name, image, reply).user)
              && st.session.stored == StoredUser(ResolveRegister(id, name, image, reply).user)
    ensures !ResolveRegister(id, name, image, reply).Rethrow? && env.apiKeySet && env.connect != Connected ==>
              st.session.user.None? && st.session.stored == NothingStored
  {
    Apply(s, ResolveRegister(id, name, image, reply), env)
  }

  /** `logout()` (src/context/AuthContext.tsx:176-187), when both
      disconnects succeed. */
  function Logout(s: Session): (s': Session)
    ensures Consistent(s')
    ensures s'.user.None? && s'.stored == NothingStored
    ensures s'.client.None? && s'.videoClient.None?
    ensures s'.connecting == s.connecting
  {
    Session(None, NothingStored, None, None, s.connecting)
  }
}

=== FILE: auth_page.dfy ===
/** The sign-in / sign-up form's submit handler (src/pages/Auth.tsx): how
    it derives the user id from the typed username, which backend call it
    makes with which defaults, and which error text it shows. */
module AuthPage {
  import opened Optional
  import opened JsText
  import Dicebear

  const Underscore: CodeUnit := 0x5F

  /** `s` without its leading whitespace. */
  function SkipWhitespace(s: JsString): (r: JsString)
    ensures |r| <= |s|
  {
    if |s| > 0 && IsWhitespace(s[0]) then SkipWhitespace(s[1..]) else s
  }

  /** What skipping removes is a prefix of whitespace, and what remains
      starts with something else. */
  lemma {:induction false} SkipWhitespaceShape(s: JsString)
    ensures var r := SkipWhitespace(s);
            && r == s[|s| - |r|..]
            && AllWhitespace(s[..|s| - |r|])
            && (|r| > 0 ==> !IsWhitespace(r[0]))
    decreases |s|
  {
    if |s| > 0 && IsWhitespace(s[0]) {
      SkipWhitespaceShape(s[1..]);
      var r := SkipWhitespace(s);
      assert s[1..][|s| - 1 - |r|..] == s[|s| - |r|..];
    }
  }

  /** `s.replace(/\s+/g, '_')`: each maximal run of whitespace becomes a
      single underscore; everything else is kept in order. */
  function ReplaceWhitespaceRuns(s: JsString): (r: JsString)
    ensures |r| <= |s|
    ensures |r| == 0 <==> |s| == 0
    decreases |s|
  {
    if |s| == 0 then []
    else if IsWhitespace(s[0]) then [Underscore] + ReplaceWhitespaceRuns(SkipWhitespace(s))
    else [s[0]] + ReplaceWhitespaceRuns(s[1..])
  }

  /** `username.toLowerCase().replace(/\s+/g, '_')` (src/pages/Auth.tsx:25).
      Nothing is trimmed: leading and trailing whitespace become `_` too. */
  function DeriveId(username: JsString): (id: JsString)
    ensures HasNoWhitespace(id)
    ensures HasNoUpperAscii(id)
    ensures |id| <= |username|
    ensures |id| == 0 <==> |username| == 0
  {
    var lower := LowerCase(username);
    ReplaceLeavesNoWhitespace(lower);
    ReplaceKeepsLowerCase(lower);
    ReplaceWhitespaceRuns(lower)
  }

  /** No whitespace survives the replacement. */
  lemma {:induction false} ReplaceLeavesNoWhitespace(s: JsString)
    ensures HasNoWhitespace(ReplaceWhitespaceRuns(s))
    decreases |s|
  {
    if |s| > 0 {
      if IsWhitespace(s[0]) {
        ReplaceLeavesNoWhitespace(SkipWhitespace(s));
      } else {
        ReplaceLeavesNoWhitespace(s[1..]);
      }
    }
  }

  /** The replacement introduces no upper-case letter. */
  lemma {:induction false} ReplaceKeepsLowerCase(s: JsString)
    requires HasNoUpperAscii(s)
    ensures HasNoUpperAscii(ReplaceWhitespaceRuns(s))
    decreases |s|
  {
    if |s| > 0 {
      if IsWhitespace(s[0]) {
        var rest := SkipWhitespace(s);
        SkipWhitespaceShape(s);
        assert HasNoUpperAscii(rest) by {
          forall i | 0 <= i < |rest|
            ensures !IsUpperAscii(rest[i])
          {
            assert rest[i] == s[|s| - |rest| + i];
          }
        }
        ReplaceKeepsLowerCase(rest);
      } else {
        ReplaceKeepsLowerCase(s[1..]);
      }
    }
  }

  /** One step of the replacement at a whitespace code unit. */
  lemma ReplaceAtWhitespace(s: JsString)
    requires |s| > 0 && IsWhitespace(s[0])
    ensures ReplaceWhitespaceRuns(s) == [Underscore] + ReplaceWhitespaceRuns(SkipWhitespace(s))
    ensures SkipWhitespace(s) == SkipWhitespace(s[1..])
  {
  }

  /** One step of the replacement at any other code unit. */
  lemma ReplaceAtOther(s: JsString)
    requires |s| > 0 && !IsWhitespace(s[0])
    ensures ReplaceWhitespaceRuns(s) == [s[0]] + ReplaceWhitespaceRuns(s[1..])
    ensures SkipWhitespace(s) == s
  {
  }

  /** The replacement as a regular-expression engine performs it: one left
      to right pass that emits `_` when a run of whitespace starts, skips the
      rest of the run and copies every other code unit. */
  method ReplaceByScan(s: JsString) returns (r: JsString)
    ensures r == ReplaceWhitespaceRuns(s)
  {
    r := [];
    var i := 0;
    var inRun := false;
    while i < |s|
      invariant 0 <= i <= |s|
      invariant !inRun ==> r + ReplaceWhitespaceRuns(s[i..]) == ReplaceWhitespaceRuns(s)
      invariant inRun ==> r + ReplaceWhitespaceRuns(SkipWhitespace(s[i..])) == ReplaceWhitespaceRuns(s)
    {
      var rest := s[i..];
      assert rest[1..] == s[i + 1..];
      if IsWhitespace(s[i]) {
        ReplaceAtWhitespace(rest);
        if !inRun {
          assert r + ReplaceWhitespaceRuns(rest)
                 == (r + [Underscore]) + ReplaceWhitespaceRuns(SkipWhitespace(s[i + 1..]));
          r := r + [Underscore];
          inRun := true;
        }
      } else {
        ReplaceAtOther(rest);
        assert r + ReplaceWhitespaceRuns(rest) == (r + [s[i]]) + ReplaceWhitespaceRuns(s[i + 1..]);
        r := r + [s[i]];
        inRun := false;
      }
      i := i + 1;
    }
  }

  /** `DeriveId` computed with the scanning replacement. */
  method DeriveIdByScan(username: JsString) returns (id: JsString)
    ensures id == DeriveId(username)
  {
    id := ReplaceByScan(LowerCase(username));
  }

  /** A string without whitespace is left alone by the replacement. */
  lemma {:induction false} ReplaceWithoutWhitespace(s: JsString)
    requires HasNoWhitespace(s)
    ensures ReplaceWhitespaceRuns(s) == s
    decreases |s|
  {
    if |s| > 0 {
      ReplaceWithoutWhitespace(s[1..]);
    }
  }

  /** Deriving an id from an id changes nothing. */
  lemma DeriveIdIdempotent(username: JsString)
    ensures DeriveId(DeriveId(username)) == DeriveId(username)
  {
    var id := DeriveId(username);
    assert LowerCase(id) == id;
    ReplaceWithoutWhitespace(id);
  }

  /** Skipping whitespace in front of a string that starts with something
      else stops there. */
  lemma {:induction false} SkipWhitespaceConcat(w: JsString, b: JsString)
    requires AllWhitespace(w)
    requires |b| == 0 || !IsWhitespace(b[0])
    ensures SkipWhitespace(w + b) == b
    decreases |w|
  {
    if |w| > 0 {
      assert (w + b)[1..] == w[1..] + b;
      SkipWhitespaceConcat(w[1..], b);
    }
  }

  /** Skipping leading whitespace commutes with appending a suffix, as long
      as the string does not consist of whitespace only. */
  lemma {:induction false} SkipWhitespaceAppend(a: JsString, c: JsString)
    requires |a| > 0 && !IsWhitespace(a[|a| - 1])
    ensures SkipWhitespace(a + c) == SkipWhitespace(a) + c
    decreases |a|
  {
    if IsWhitespace(a[0]) {
      assert (a + c)[1..] == a[1..] + c;
      SkipWhitespaceAppend(a[1..], c);
    }
  }

  /** The replacement is determined run by run: a maximal run `w` of
      whitespace between `a` and `b` becomes exactly one `_` between the
      replacements of `a` and of `b`. */
  lemma ReplaceSplitsAtRun(a: JsString, w: JsString, b: JsString)
    requires |w| > 0 && AllWhitespace(w)
    requires |a| == 0 || !IsWhitespace(a[|a| - 1])
    requires |b| == 0 || !IsWhitespace(b[0])
    ensures ReplaceWhitespaceRuns(a + w + b)
            == ReplaceWhitespaceRuns(a) + [Underscore] + ReplaceWhitespaceRuns(b)
  {
    var tail := w + b;
    SkipWhitespaceConcat(w, b);
    ReplaceAtWhitespace(tail);
    ReplaceBeforeRun(a, tail, ReplaceWhitespaceRuns(b));
    assert a + w + b == a + tail;
  }

  /** The induction behind `ReplaceSplitsAtRun`: `tail` starts a run of
      whitespace and is replaced by `_` followed by `rb`; whatever ends in
      something else in front of it is replaced on its own. */
  lemma {:induction false} ReplaceBeforeRun(a: JsString, tail: JsString, rb: JsString)
    requires |a| == 0 || !IsWhitespace(a[|a| - 1])
    requires ReplaceWhitespaceRuns(tail) == [Underscore] + rb
    requires |tail| > 0 && IsWhitespace(tail[0])
    ensures ReplaceWhitespaceRuns(a + tail) == ReplaceWhitespaceRuns(a) + [Underscore] + rb
    decreases |a|
  {
    if |a| == 0 {
      assert a + tail == tail;
    } else if IsWhitespace(a[0]) {
      SkipWhitespaceShape(a);
      ReplaceBeforeRun(SkipWhitespace(a), tail, rb);
      SplitStepWhitespace(a, tail, rb);
    } else {
      ReplaceBeforeRun(a[1..], tail, rb);
      SplitStepOther(a, tail, rb);
    }
  }

  /** The inductive step of `ReplaceBeforeRun` when `a` starts with
      whitespace: `tail` follows `a`, and `rb` is what it contributes after
      the underscore. */
  lemma SplitStepWhitespace(a: JsString, tail: JsString, rb: JsString)
    requires |a| > 0 && IsWhitespace(a[0]) && !IsWhitespace(a[|a| - 1])
    requires ReplaceWhitespaceRuns(SkipWhitespace(a) + tail)
             == ReplaceWhitespaceRuns(SkipWhitespace(a)) + [Underscore] + rb
    ensures ReplaceWhitespaceRuns(a + tail) == ReplaceWhitespaceRuns(a) + [Underscore] + rb
  {
    SkipWhitespaceAppend(a, tail);
    ReplaceAtWhitespace(a + tail);
    ReplaceAtWhitespace(a);
  }

  /** The inductive step of `ReplaceBeforeRun` when `a` starts with
      something else. */
  lemma SplitStepOther(a: JsString, tail: JsString, rb: JsString)
    requires |a| > 0 && !IsWhitespace(a[0])
    requires ReplaceWhitespaceRuns(a[1..] + tail) == ReplaceWhitespaceRuns(a[1..]) + [Underscore] + rb
    ensures ReplaceWhitespaceRuns(a + tail) == ReplaceWhitespaceRuns(a) + [Underscore] + rb
  {
    assert (a + tail)[1..] == a[1..] + tail;
    ReplaceAtOther(a + tail);
    ReplaceAtOther(a);
  }

  lemma LowerCaseConcat(a: JsString, b: JsString)
    ensures LowerCase(a + b) == LowerCase(a) + LowerCase(b)
  {
  }

  /** Nothing is trimmed: whitespace in front of the username becomes a
      leading `_` of the id. */
  lemma LeadingWhitespaceKept(w: JsString, u: JsString)
    requires |w| > 0 && AllWhitespace(w)
    requires |u| == 0 || !IsWhitespace(u[0])
    ensures DeriveId(w + u) == [Underscore] + DeriveId(u)
  {
    LowerCaseConcat(w, u);
    var lw, lu := LowerCase(w), LowerCase(u);
    assert [] + lw + lu == lw + lu;
    ReplaceSplitsAtRun([], lw, lu);
  }

  /** Nothing is trimmed: whitespace after the username becomes a trailing
      `_` of the id. */
  lemma TrailingWhitespaceKept(u: JsString, w: JsString)
    requires |w| > 0 && AllWhitespace(w)
    requires |u| == 0 || !IsWhitespace(u[|u| - 1])
    ensures DeriveId(u + w) == DeriveId(u) + [Underscore]
  {
    LowerCaseConcat(u, w);
    var lu, lw := LowerCase(u), LowerCase(w);
    assert lu + lw + [] == lu + lw;
    ReplaceSplitsAtRun(lu, lw, []);
  }

  /** The form's two modes. */
  datatype Mode = SignIn | SignUp

  /** The form's fields at submission. */
  datatype Form = Form(mode: Mode, username: JsString, password: JsString,
                       fullName: JsString, avatarUrl: JsString)

  /** The call `handleSubmit` makes on the authentication context. */
  datatype Call =
    | LoginCall(id: JsString, password: JsString)
    | RegisterCall(id: JsString, name: JsString, password: JsString, image: JsString)

  /** `handleSubmit` up to the context call (src/pages/Auth.tsx:24-32). */
  function Submit(f: Form): (c: Call)
    ensures c.id == DeriveId(f.username) && c.password == f.password
    ensures c.LoginCall? <==> f.mode == SignIn
    ensures c.RegisterCall? && |f.avatarUrl| > 0 ==> c.image == f.avatarUrl
    ensures c.RegisterCall? && |f.avatarUrl| == 0 ==> c.image == Dicebear.AvatarUrl(c.id)
    ensures c.RegisterCall? && |f.fullName| > 0 ==> c.name == f.fullName
    ensures c.RegisterCall? && |f.fullName| == 0 ==> c.name == f.username
  {
    var id := DeriveId(f.username);
    match f.mode
    case SignIn => LoginCall(id, f.password)
    case SignUp =>
      RegisterCall(id, Or(Some(f.fullName), f.username), f.password,
                   Or(Some(f.avatarUrl), Dicebear.AvatarUrl(id)))
  }

  const AuthenticationFailed := Lit("Authentication failed")

  /** `err.message || 'Authentication failed'` (src/pages/Auth.tsx:36);
      `None` is an error without a message. */
  function ErrorText(message: Option<JsString>): (text: JsString)
    ensures |text| > 0
    ensures Truthy(message) ==> text == message.value
    ensures !Truthy(message) ==> text == AuthenticationFailed
  {
    Or(message, AuthenticationFailed)
  }

  /** Two words separated by one space: the id is both words lower-cased,
      joined by `_`. */
  lemma DeriveIdOfTwoWords(a: JsString, b: JsString)
    requires |a| > 0 && |b| > 0 && HasNoWhitespace(a) && HasNoWhitespace(b)
    ensures DeriveId(a + [0x20] + b) == LowerCase(a) + [Underscore] + LowerCase(b)
  {
    var la, lb := LowerCase(a), LowerCase(b);
    LowerCaseConcat(a + [0x20], b);
    LowerCaseConcat(a, [0x20]);
    assert LowerCase([0x20]) == [0x20];
    ReplaceSplitsAtRun(la, [0x20], lb);
    ReplaceWithoutWhitespace(la);
    ReplaceWithoutWhitespace(lb);
  }

  /** Signing up as "Bob Smith" with no full name or avatar registers the id
      "bob_smith" under the name "Bob Smith" (the raw username, not the id)
      with the DiceBear avatar seeded by the id. */
  lemma SignUpDefaults(password: JsString)
    ensures Submit(Form(SignUp, Lit("Bob Smith"), password, [], []))
            == RegisterCall(Lit("bob_smith"), Lit("Bob Smith"), password, Dicebear.AvatarUrl(Lit("bob_smith")))
  {
    var bob, smith := Lit("Bob"), Lit("Smith");
    assert Lit("Bob Smith") == bob + [0x20] + smith;
    DeriveIdOfTwoWords(bob, smith);
    assert LowerCase(bob) == Lit("bob");
    assert LowerCase(smith) == Lit("smith");
    assert Lit("bob") + [Underscore] + Lit("smith") == Lit("bob_smith");
  }

  /** Usernames that differ only in the case of ASCII letters give the same
      id, so they name one account. */
  lemma DeriveIdIgnoresCase(a: JsString, b: JsString)
    requires LowerCase(a) == LowerCase(b)
    ensures DeriveId(a) == DeriveId(b)
  {
  }

  /** The two modes of the form address the same account: with the same
      username and password, signing in sends the id and password that
      signing up registered, and a username typed in other letter case sends
      the same call. */
  lemma SubmitModesAgree(f: Form, username: JsString)
    requires LowerCase(username) == LowerCase(f.username)
    ensures var up := Submit(f.(mode := SignUp));
            var signIn := Submit(f.(mode := SignIn));
            && signIn == LoginCall(up.id, up.password)
            && Submit(f.(mode := SignIn, username := username)) == signIn
  {
    DeriveIdIgnoresCase(username, f.username);
  }
}

=== FILE: avatar.dfy ===
/** The avatar component (src/components/common/Avatar.tsx): an image, or
    a disc with the initials of the name when there is no image or it failed
    to load. */
module Avatar {
  import opened Optional
  import opened JsText

  const Space: CodeUnit := 0x20

  /** `s.split(' ')`: the pieces between single spaces, empty ones included;
      a string without spaces is one piece. */
  function Split(s: JsString): (words: seq<JsString>)
    ensures |words| >= 1
    decreases |s|
  {
    if |s| == 0 then [[]]
    else
      var init := Split(s[..|s| - 1]);
      var last := s[|s| - 1];
      if last == Space then init + [[]]
      else init[..|init| - 1] + [init[|init| - 1] + [last]]
  }

  /** `words.join(' ')`. */
  function Join(words: seq<JsString>): JsString
    requires |words| >= 1
    decreases |words|
  {
    if |words| == 1 then words[0]
    else Join(words[..|words| - 1]) + [Space] + words[|words| - 1]
  }

  predicate NoSpace(w: JsString) {
    forall i :: 0 <= i < |w| ==> w[i] != Space
  }

  /** Splitting loses nothing: joining the pieces gives the string back. */
  lemma {:induction false} SplitJoin(s: JsString)
    ensures Join(Split(s)) == s
    decreases |s|
  {
    if |s| > 0 {
      var t := s[..|s| - 1];
      SplitJoin(t);
      assert s == t + [s[|s| - 1]];
      if s[|s| - 1] == Space {
        JoinAppendEmpty(Split(t));
      } else {
        JoinExtendLast(Split(t), s[|s| - 1]);
      }
    }
  }

  /** No piece of a split contains a space. */
  lemma {:induction false} SplitPiecesHaveNoSpace(s: JsString)
    ensures forall k :: 0 <= k < |Split(s)| ==> NoSpace(Split(s)[k])
    decreases |s|
  {
    if |s| > 0 {
      var t := s[..|s| - 1];
      SplitPiecesHaveNoSpace(t);
      var init := Split(t);
      var words := Split(s);
      if s[|s| - 1] == Space {
        assert words == init + [[]];
      } else {
        assert words == init[..|init| - 1] + [init[|init| - 1] + [s[|s| - 1]]];
      }
    }
  }

  /** Joining with one more, empty, piece appends a space. */
  lemma JoinAppendEmpty(words: seq<JsString>)
    requires |words| >= 1
    ensures Join(words + [[]]) == Join(words) + [Space]
  {
    assert (words + [[]])[..|words|] == words;
  }

  /** Extending the last piece extends the joined string. */
  lemma JoinExtendLast(words: seq<JsString>, c: CodeUnit)
    requires |words| >= 1
    ensures Join(words[..|words| - 1] + [words[|words| - 1] + [c]]) == Join(words) + [c]
  {
    var k := |words|;
    var v := words[..k - 1] + [words[k - 1] + [c]];
    if k > 1 {
      assert v[..k - 1] == words[..k - 1];
    }
  }

  /** `word[0]` as `join` sees it: the first code unit, or nothing for an
      empty word (whose `word[0]` is `undefined`, joined as ''). */
  function FirstUnit(w: JsString): JsString {
    if |w| == 0 then [] else [w[0]]
  }

  /** `words.map(word => word[0]).join('')`. */
  function FirstUnits(words: seq<JsString>): JsString
    decreases |words|
  {
    if |words| == 0 then [] else FirstUnits(words[..|words| - 1]) + FirstUnit(words[|words| - 1])
  }

  /** The code units of `s` that begin a word: not a space, and either first
      or right after a space. */
  function WordStarts(s: JsString): (r: JsString)
    ensures |r| <= |s|
    decreases |s|
  {
    if |s| == 0 then []
    else
      var n := |s|;
      WordStarts(s[..n - 1])
      + (if s[n - 1] != Space && (n == 1 || s[n - 2] == Space) then [s[n - 1]] else [])
  }

  /** The last piece of a split is empty exactly when the string is empty or
      ends with a space. */
  lemma {:induction false} SplitLastPiece(s: JsString)
    ensures var words := Split(s);
            |words[|words| - 1]| == 0 <==> |s| == 0 || s[|s| - 1] == Space
    decreases |s|
  {
  }

  /** The first units of the pieces are exactly the word starts: empty
      pieces, from consecutive, leading or trailing spaces, contribute
      nothing. */
  lemma {:induction false} FirstUnitsAreWordStarts(s: JsString)
    ensures FirstUnits(Split(s)) == WordStarts(s)
    decreases |s|
  {
    if |s| > 0 {
      var t := s[..|s| - 1];
      FirstUnitsAreWordStarts(t);
      SplitLastPiece(t);
      if s[|s| - 1] == Space {
        StartsStepAtSpace(s);
      } else {
        StartsStepAtOther(s);
      }
    }
  }

  /** The inductive step of `FirstUnitsAreWordStarts` for a final space. */
  lemma StartsStepAtSpace(s: JsString)
    requires |s| > 0 && s[|s| - 1] == Space
    requires FirstUnits(Split(s[..|s| - 1])) == WordStarts(s[..|s| - 1])
    ensures FirstUnits(Split(s)) == WordStarts(s)
  {
    var init := Split(s[..|s| - 1]);
    assert Split(s) == init + [[]];
    assert (init + [[]])[..|init|] == init;
  }

  /** The inductive step of `FirstUnitsAreWordStarts` for any other final
      code unit. */
  lemma StartsStepAtOther(s: JsString)
    requires |s| > 0 && s[|s| - 1] != Space
    requires FirstUnits(Split(s[..|s| - 1])) == WordStarts(s[..|s| - 1])
    requires var t := s[..|s| - 1];
             var init := Split(t);
             |init[|init| - 1]| == 0 <==> |t| == 0 || t[|t| - 1] == Space
    ensures FirstUnits(Split(s)) == WordStarts(s)
  {
    var t := s[..|s| - 1];
    var init := Split(t);
    var k := |init|;
    SplitExtendsLastPiece(s);
    WordStartsStep(s);
    ExtendPieceStep(FirstUnits(init[..k - 1]), init[k - 1], s[|s| - 1], WordStarts(t),
                    |t| == 0 || t[|t| - 1] == Space);
  }

  /** Extending the last piece by `c` adds `c` to the first units exactly
      when that piece was empty, that is, when `c` begins a word. */
  lemma ExtendPieceStep(before: JsString, piece: JsString, c: CodeUnit, starts: JsString, startsHere: bool)
    requires before + FirstUnit(piece) == starts
    requires |piece| == 0 <==> startsHere
    ensures before + FirstUnit(piece + [c]) == starts + (if startsHere then [c] else [])
  {
    if |piece| == 0 {
      assert piece + [c] == [c];
    } else {
      assert (piece + [c])[0] == piece[0];
    }
  }

  /** Appending a code unit other than a space extends the last piece. */
  lemma SplitExtendsLastPiece(s: JsString)
    requires |s| > 0 && s[|s| - 1] != Space
    ensures var init := Split(s[..|s| - 1]);
            var k := |init|;
            && FirstUnits(Split(s)) == FirstUnits(init[..k - 1]) + FirstUnit(init[k - 1] + [s[|s| - 1]])
            && FirstUnits(init) == FirstUnits(init[..k - 1]) + FirstUnit(init[k - 1])
  {
    var init := Split(s[..|s| - 1]);
    var k := |init|;
    var words := Split(s);
    assert words == init[..k - 1] + [init[k - 1] + [s[|s| - 1]]];
    assert words[..k - 1] == init[..k - 1];
  }

  /** Appending a code unit adds it to the word starts exactly when it
      begins a word. */
  lemma WordStartsStep(s: JsString)
    requires |s| > 0
    ensures var t := s[..|s| - 1];
            WordStarts(s)
            == WordStarts(t)
               + (if s[|s| - 1] != Space && (|t| == 0 || t[|t| - 1] == Space) then [s[|s| - 1]] else [])
  {
    var t := s[..|s| - 1];
    assert |s| >= 2 ==> t[|t| - 1] == s[|s| - 2];
  }

  /** A single word starts once, at its first code unit. */
  lemma {:induction false} WordStartsOfWord(w: JsString)
    requires |w| > 0 && NoSpace(w)
    ensures WordStarts(w) == [w[0]]
    decreases |w|
  {
    if |w| > 1 {
      var v := w[..|w| - 1];
      WordStartsOfWord(v);
      assert v[|v| - 1] == w[|w| - 2];
    }
  }

  /** A space separates: the word starts of `a`, a space and `b` are those
      of `a` followed by those of `b`, however many spaces `a` ends with or
      `b` begins with. */
  lemma {:induction false} WordStartsAfterSpace(a: JsString, b: JsString)
    ensures WordStarts(a + [Space] + b) == WordStarts(a) + WordStarts(b)
    decreases |b|
  {
    var s := a + [Space] + b;
    if |b| == 0 {
      assert s == a + [Space];
      assert s[..|s| - 1] == a;
    } else {
      var b' := b[..|b| - 1];
      WordStartsAfterSpace(a, b');
      assert s[..|s| - 1] == a + [Space] + b';
      assert s[|s| - 2] == if |b'| == 0 then Space else b'[|b'| - 1];
    }
  }

  /** `getInitials(name)` (src/components/common/Avatar.tsx:27-34). */
  function Initials(name: JsString): (r: JsString)
    ensures |r| <= 2
    ensures HasNoLowerAscii(r)
  {
    var u := UpperCase(FirstUnits(Split(name)));
    if |u| <= 2 then u else u[..2]
  }

  /** The initials are the first two word starts of the name, upper-cased. */
  lemma InitialsAreWordStarts(name: JsString)
    ensures var starts := UpperCase(WordStarts(name));
            Initials(name) == if |starts| <= 2 then starts else starts[..2]
  {
    FirstUnitsAreWordStarts(name);
  }

  /** A run of spaces counts as one: doubling a space adds no word start. */
  lemma DoubledSpaceAddsNoStart(a: JsString, b: JsString)
    ensures WordStarts(a + [Space, Space] + b) == WordStarts(a + [Space] + b)
  {
    var empty: JsString := [];
    assert a + [Space, Space] + b == a + [Space] + ([Space] + b);
    assert [Space] + b == empty + [Space] + b;
    WordStartsAfterSpace(a, [Space] + b);
    WordStartsAfterSpace(empty, b);
    WordStartsAfterSpace(a, b);
  }

  /** Hence the empty words between consecutive spaces contribute nothing to
      the initials. */
  lemma DoubledSpaceChangesNoInitial(a: JsString, b: JsString)
    ensures Initials(a + [Space, Space] + b) == Initials(a + [Space] + b)
  {
    var s1, s2 := a + [Space, Space] + b, a + [Space] + b;
    DoubledSpaceAddsNoStart(a, b);
    InitialsAreWordStarts(s1);
    InitialsAreWordStarts(s2);
  }

  datatype Size = Sm | Md | Lg | Xl

  /** What the component renders. */
  datatype View =
    | Picture(src: JsString, alt: JsString, size: Size)
    | Fallback(initials: JsString, size: Size)

  const DefaultName := Lit("U")

  /** An empty name shows "U". */
  lemma InitialsOfDefaultName()
    ensures Initials(DefaultName) == DefaultName
  {
    assert DefaultName == [0x55];
    assert DefaultName[..0] == [];
    var empty: JsString := [];
    assert Split(empty) == [empty];
    assert Split(DefaultName) == [empty][..0] + [empty + DefaultName];
    assert [empty][..0] == [];
    assert empty + DefaultName == DefaultName;
    assert FirstUnits([DefaultName]) == FirstUnits([]) + FirstUnit(DefaultName);
    assert UpperCase(DefaultName) == DefaultName;
  }

  /** The component for props `src`, `alt` and `size`, after an image load
      error has (`imgError`) or has not occurred
      (src/components/common/Avatar.tsx:24-53). */
  function Render(src: JsString, alt: JsString, size: Option<Size>, imgError: bool): (v: View)
    ensures v.Fallback? <==> |src| == 0 || imgError
    ensures v.Picture? ==> v.src == src && v.alt == alt
    ensures v.Fallback? && |alt| > 0 ==> v.initials == Initials(alt)
    ensures v.Fallback? && |alt| == 0 ==> v.initials == DefaultName
    ensures size.None? ==> v.size == Md
    ensures size.Some? ==> v.size == size.value
  {
    var sz := size.OrElse(Md);
    if |src| == 0 || imgError then
      InitialsOfDefaultName();
      Fallback(Initials(Or(Some(alt), DefaultName)), sz)
    else Picture(src, alt, sz)
  }
}

=== FILE: channel_preview.dfy ===
/** The pure parts of one row of the mobile channel list
    (src/components/stream/MobileChannelList.tsx): the last message, the
    name, image and presence shown for the channel, the message preview, the
    unread badge and the delivery tick. */
module ChannelPreview {
  import opened Optional
  import opened JsText
  import Avatar

  /** A message as the row reads it; `attachments` is the length of the
      attachments list, `None` when there is none. */
  datatype Message = Message(
    authorId: Option<JsString>,   // `message.user?.id`
    text: Option<JsString>,
    attachments: Option<nat>,
    status: Option<JsString>)

  /** The `user` object of a channel member. */
  datatype MemberUser = MemberUser(name: Option<JsString>, image: Option<JsString>, online: Option<bool>)

  datatype Member = Member(userId: JsString, user: Option<MemberUser>)

  /** `channel.data`. */
  datatype ChannelData = ChannelData(name: Option<JsString>, image: Option<JsString>)

  /** `channel.state.messages[channel.state.messages.length - 1]`
      (src/components/stream/MobileChannelList.tsx:19). */
  function LastMessage(messages: seq<Message>): (m: Option<Message>)
    ensures m.None? <==> |messages| == 0
    ensures m.Some? ==> m.value == messages[|messages| - 1]
  {
    if |messages| == 0 then None else Some(messages[|messages| - 1])
  }

  /** `members.find(m => m.user_id !== me)`: the position of the first
      member who is not the current user. */
  function FirstOther(members: seq<Member>, me: JsString): (i: Option<nat>)
    ensures i.Some? ==> i.value < |members| && members[i.value].userId != me
    ensures i.Some? ==> forall j :: 0 <= j < i.value ==> members[j].userId == me
    ensures i.None? <==> forall j :: 0 <= j < |members| ==> members[j].userId == me
  {
    if |members| == 0 then None
    else if members[0].userId != me then Some(0)
    else
      match FirstOther(members[1..], me)
      case None => None
      case Some(k) => Some(k + 1)
  }

  datatype DisplayInfo = DisplayInfo(name: JsString, image: Option<JsString>, online: bool)

  const GroupChat := Lit("Group Chat")

  /** `getDisplayInfo()` (src/components/stream/MobileChannelList.tsx:22-39);
      `online` is the truthiness of `user?.online`. */
  function GetDisplayInfo(members: seq<Member>, me: JsString, data: Option<ChannelData>): (d: DisplayInfo)
    // a one-to-one channel shows the other member
    ensures |members| == 2 && FirstOther(members, me).Some? ==>
              var m := members[FirstOther(members, me).value];
              && m.userId != me
              && d.name == (if m.user.Some? then Or(m.user.value.name, m.userId) else m.userId)
              && d.image == (if m.user.Some? then m.user.value.image else None)
              && d.online == (m.user.Some? && m.user.value.online == Some(true))
    // anything else shows the channel
    ensures !(|members| == 2 && FirstOther(members, me).Some?) ==>
              && d.name == (if data.Some? then Or(data.value.name, GroupChat) else GroupChat)
              && d.image == (if data.Some? then data.value.image else None)
              && !d.online
    ensures |d.name| > 0 || (|members| == 2 && FirstOther(members, me).Some?)
  {
    var other := if |members| == 2 then FirstOther(members, me) else None;
    if other.Some? then
      var m := members[other.value];
      match m.user
      case Some(u) => DisplayInfo(Or(u.name, m.userId), u.image, u.online == Some(true))
      case None => DisplayInfo(m.userId, None, false)
    else
      match data
      case Some(cd) => DisplayInfo(Or(cd.name, GroupChat), cd.image, false)
      case None => DisplayInfo(GroupChat, None, false)
  }

  /** In a one-to-one channel the row never shows the current user: it shows
      the other member whichever order the two are listed in. */
  lemma OneToOneShowsTheOther(a: Member, b: Member, me: JsString, data: Option<ChannelData>)
    requires a.userId == me && b.userId != me
    ensures GetDisplayInfo([a, b], me, data) == GetDisplayInfo([b, a], me, data)
    ensures GetDisplayInfo([a, b], me, data).name
            == (if b.user.Some? then Or(b.user.value.name, b.userId) else b.userId)
  {
    assert FirstOther([a, b], me) == Some(1) by {
      assert [a, b][1..] == [b];
    }
  }

  const NoMessages := Lit("No messages yet")

  /** "📎 Attachment": U+1F4CE takes the surrogate pair D83D DCCE. */
  const AttachmentText: JsString := [0xD83D, 0xDCCE] + Lit(" Attachment")

  const Ellipsis := Lit("...")

  const PreviewLimit := 35

  /** `getMessagePreview()` (src/components/stream/MobileChannelList.tsx:61-76):
      a text over 35 code units keeps its first 35 and gains "...". The
      current user's id `me` is consulted, but does not matter. */
  function MessagePreview(last: Option<Message>, me: JsString): (r: JsString)
    ensures last.None? ==> r == NoMessages
    ensures |r| <= PreviewLimit + |Ellipsis|
    ensures last.Some? ==>
              var text := if last.value.attachments.Some? && last.value.attachments.value > 0
                          then AttachmentText else last.value.text.OrElse([]);
              && (|text| <= PreviewLimit ==> r == text)
              && (|text| > PreviewLimit ==> r == text[..PreviewLimit] + Ellipsis)
  {
    match last
    case None => NoMessages
    case Some(msg) =>
      var isOwn := msg.authorId == Some(me);
      var text := msg.text.OrElse([]);
      var text := if msg.attachments.Some? && msg.attachments.value > 0 then AttachmentText else text;
      var text := if |text| > PreviewLimit then text[..PreviewLimit] + Ellipsis else text;
      if isOwn then text else text
  }

  /** The preview is a prefix of the message text (or of the attachment
      label), possibly followed by "...", and it is the same whoever wrote
      the message. */
  lemma PreviewIsPrefix(msg: Message, me: JsString, other: JsString)
    ensures var text := if msg.attachments.Some? && msg.attachments.value > 0
                        then AttachmentText else msg.text.OrElse([]);
            var r := MessagePreview(Some(msg), me);
            && (r == text || (r[..PreviewLimit] == text[..PreviewLimit] && r[PreviewLimit..] == Ellipsis))
            && r == MessagePreview(Some(msg), other)
  {
  }

  /** An attachment hides the text, however long, and is never cut. */
  lemma AttachmentPreview(msg: Message, me: JsString)
    requires msg.attachments.Some? && msg.attachments.value > 0
    ensures MessagePreview(Some(msg), me) == AttachmentText
    ensures |AttachmentText| == 13
  {
  }

  const Overflow := Lit("99+")

  /** The unread badge (src/components/stream/MobileChannelList.tsx:149-152):
      hidden for no unread messages, the count up to 99, "99+" above. */
  function UnreadBadge(count: nat): (badge: Option<JsString>)
    ensures badge.None? <==> count == 0
    ensures badge.Some? && count > 99 ==> badge.value == Overflow
    ensures badge.Some? && count <= 99 ==> badge.value == Decimal(count)
  {
    if count == 0 then None
    else if count > 99 then Some(Overflow)
    else Some(Decimal(count))
  }

  /** A shown badge has at most three code units, and a count it shows in
      digits can be read back from it: different counts up to 99 give
      different badges, and none of them reads "99+". */
  lemma UnreadBadgeReadsBack(count: nat)
    requires 0 < count <= 99
    ensures var b := UnreadBadge(count).value;
            && |b| <= 2
            && (forall i :: 0 <= i < |b| ==> IsDigit(b[i]))
            && DigitsValue(b) == count
            && b != Overflow
  {
    DecimalShape(count);
    DecimalRoundTrip(count);
  }

  datatype Tick = NoTick | SingleTick | DoubleTick

  const Received := Lit("received")

  /** The delivery tick (src/components/stream/MobileChannelList.tsx:108,
      134-141): only the current user's own last message has one, double
      when its status is "received". */
  function DeliveryTick(last: Option<Message>, me: JsString): (t: Tick)
    ensures t != NoTick <==> last.Some? && last.value.authorId == Some(me)
    ensures t == DoubleTick <==>
              last.Some? && last.value.authorId == Some(me) && last.value.status == Some(Received)
  {
    if last.Some? && last.value.authorId == Some(me) then
      if last.value.status == Some(Received) then DoubleTick else SingleTick
    else NoTick
  }

  /** Appending a message makes it the last one. */
  lemma LastMessageOfAppend(messages: seq<Message>, m: Message)
    ensures LastMessage(messages + [m]) == Some(m)
  {
  }

  /** The text line of a row: the delivery tick and the preview, both read
      off the last message (src/components/stream/MobileChannelList.tsx:19,
      108, 134-146). */
  datatype TextLine = TextLine(tick: Tick, preview: JsString)

  function TextLineOf(messages: seq<Message>, me: JsString): (line: TextLine)
    ensures |messages| == 0 ==> line == TextLine(NoTick, NoMessages)
    ensures line.tick != NoTick ==> |messages| > 0 && messages[|messages| - 1].authorId == Some(me)
    ensures |messages| > 0 ==>
              var m := messages[|messages| - 1];
              line == TextLine(DeliveryTick(Some(m), me), MessagePreview(Some(m), me))
  {
    var last := LastMessage(messages);
    TextLine(DeliveryTick(last, me), MessagePreview(last, me))
  }

  /** Whatever came before, a newly appended message alone decides the
      tick and the preview. */
  lemma NewestMessageShows(messages: seq<Message>, m: Message, me: JsString)
    ensures TextLineOf(messages + [m], me) == TextLineOf([m], me)
    ensures TextLineOf(messages + [m], me) == TextLine(DeliveryTick(Some(m), me), MessagePreview(Some(m), me))
  {
    LastMessageOfAppend(messages, m);
  }

  /** Only the newest message shows: after the current user's own message
      with status "received" the row has a double tick and that message's
      preview, whatever came before it. */
  lemma OwnReceivedMessageShows(messages: seq<Message>, m: Message, me: JsString)
    requires m.authorId == Some(me) && m.status == Some(Received)
    ensures TextLineOf(messages + [m], me) == TextLine(DoubleTick, MessagePreview(Some(m), me))
  {
    LastMessageOfAppend(messages, m);
  }

  /** A message from someone else removes the tick, however the current
      user's earlier messages stood. */
  lemma OtherMessageClearsTick(messages: seq<Message>, m: Message, me: JsString)
    requires m.authorId != Some(me)
    ensures TextLineOf(messages + [m], me).tick == NoTick
  {
    LastMessageOfAppend(messages, m);
  }

  /** The avatar of the row: `<Avatar src={image || ''} alt={name || ''} size="md" />`. */
  function RowAvatar(d: DisplayInfo, imgError: bool): (v: Avatar.View)
    ensures v.size == Avatar.Md
    ensures v.Fallback? <==> !Truthy(d.image) || imgError
  {
    Avatar.Render(Or(d.image, []), d.name, Some(Avatar.Md), imgError)
  }

  /** A group channel without a name or image shows the initials "GC". */
  lemma UnnamedGroupShowsInitials(members: seq<Member>, me: JsString)
    requires |members| != 2
    ensures RowAvatar(GetDisplayInfo(members, me, None), false) == Avatar.Fallback(Lit("GC"), Avatar.Md)
  {
    var d := GetDisplayInfo(members, me, None);
    assert d.name == GroupChat && d.image == None;
    GroupChatInitials();
  }

  /** The fallback name "Group Chat" has the initials "GC". */
  lemma GroupChatInitials()
    ensures Avatar.Initials(GroupChat) == Lit("GC")
  {
    var group, chat := Lit("Group"), Lit("Chat");
    assert GroupChat == group + [Avatar.Space] + chat;
    GroupChatStarts(group, chat);
    Avatar.InitialsAreWordStarts(GroupChat);
    assert UpperCase(Lit("GC")) == Lit("GC");
  }

  lemma GroupChatStarts(group: JsString, chat: JsString)
    requires group == Lit("Group") && chat == Lit("Chat")
    ensures Avatar.WordStarts(group + [Avatar.Space] + chat) == Lit("GC")
  {
    Avatar.WordStartsAfterSpace(group, chat);
    Avatar.WordStartsOfWord(group);
    Avatar.WordStartsOfWord(chat);
  }
}

=== FILE: dicebear.dfy ===
/** The generated default avatar: a DiceBear "avataaars" image seeded with
    a user id, used by the sign-up form and by the client's dev-mode login. */
module Dicebear {
  import opened JsText

  const SeedPrefix := Lit("https://api.dicebear.com/7.x/avataaars/svg?seed=")

  /** The avatar URL for `seed`; the seed is appended as it is, without
      URL-encoding. */
  function AvatarUrl(seed: JsString): (url: JsString)
    ensures |url| == |SeedPrefix| + |seed|
    ensures url[..|SeedPrefix|] == SeedPrefix
    ensures url[|SeedPrefix|..] == seed
  {
    SeedPrefix + seed
  }

  /** Different seeds give different avatars. */
  lemma AvatarUrlInjective(a: JsString, b: JsString)
    ensures AvatarUrl(a) == AvatarUrl(b) <==> a == b
  {
    if AvatarUrl(a) == AvatarUrl(b) {
      assert a == AvatarUrl(a)[|SeedPrefix|..];
    }
  }
}

=== FILE: flows.dfy ===
/** How the server's responses travel through the client's authentication
    context to the sign-in form: which failures the user sees, and which
    ones silently turn into a dev-mode session. */
module Flows {
  import opened Optional
  import opened JsText
  import Dicebear
  import ServerAuth
  import AuthContext
  import AuthPage

  /** A 401 from the server, whether for an unknown id or a wrong password,
      is rethrown unchanged, leaves the session as it was, and the form shows
      "Invalid credentials". */
  lemma InvalidCredentialsReachTheForm(s: AuthContext.Session, req: ServerAuth.LoginRequest,
                                       store: ServerAuth.Store, faults: ServerAuth.Faults,
                                       hasher: ServerAuth.Hasher, p: ServerAuth.Provider,
                                       env: AuthContext.Env)
    requires ServerAuth.Login(req, store, faults, hasher, p).response.status == 401
    ensures var reply := AuthContext.ReplyOf(ServerAuth.Login(req, store, faults, hasher, p).response);
            var st := AuthContext.Login(s, req.id.value, reply, env);
            && st == AuthContext.Step(s, Some(ServerAuth.InvalidCredentials))
            && AuthPage.ErrorText(st.thrown) == ServerAuth.InvalidCredentials
  {
  }

  /** A login the server rejects as incomplete (400 "Missing credentials")
      is not reported: the client signs in as the dev-mode user named by the
      id instead. */
  lemma MissingPasswordSignsInDevUser(id: JsString, password: Option<JsString>,
                                      store: ServerAuth.Store, faults: ServerAuth.Faults,
                                      hasher: ServerAuth.Hasher, p: ServerAuth.Provider)
    requires !Truthy(password)
    ensures var resp := ServerAuth.Login(ServerAuth.LoginRequest(Some(id), password), store, faults, hasher, p).response;
            AuthContext.ResolveLogin(id, AuthContext.ReplyOf(resp))
            == AuthContext.DevMode(AuthContext.User(id, id, Some(Dicebear.AvatarUrl(id)), None))
  {
    assert ServerAuth.MissingCredentials != ServerAuth.InvalidCredentials by {
      assert ServerAuth.MissingCredentials[0] != ServerAuth.InvalidCredentials[0];
    }
  }

  /** A duplicate registration is rethrown and the form shows "User already
      exists"; the session is untouched. */
  lemma DuplicateReachesTheForm(s: AuthContext.Session, req: ServerAuth.RegisterRequest,
                                store: ServerAuth.Store, faults: ServerAuth.Faults,
                                hasher: ServerAuth.Hasher, salt: JsString, p: ServerAuth.Provider,
                                image: Option<JsString>, env: AuthContext.Env)
    requires ServerAuth.ValidRegister(req) && req.id.value in store && !faults.selectFails
    ensures var resp := ServerAuth.Register(req, store, faults, hasher, salt, p).response;
            var st := AuthContext.Register(s, req.id.value, req.name.value, image,
                                           AuthContext.ReplyOf(resp), env);
            && st == AuthContext.Step(s, Some(ServerAuth.UserExists))
            && AuthPage.ErrorText(st.thrown) == ServerAuth.UserExists
  {
  }

  /** When the provider fails after the insert, the server keeps the row
      and answers 500, and the client signs in anyway, as a dev-mode user
      with the submitted name and image and no backend token. */
  lemma ProviderFailureSignsInDevUser(req: ServerAuth.RegisterRequest, store: ServerAuth.Store,
                                      faults: ServerAuth.Faults, hasher: ServerAuth.Hasher,
                                      salt: JsString, p: ServerAuth.Provider)
    requires ServerAuth.ValidRegister(req) && req.id.value !in store
    requires !faults.selectFails && !faults.insertFails && !ServerAuth.Working(p)
    ensures var o := ServerAuth.Register(req, store, faults, hasher, salt, p);
            && req.id.value in o.store
            && AuthContext.ResolveRegister(req.id.value, req.name.value, req.image,
                                           AuthContext.ReplyOf(o.response))
               == AuthContext.DevMode(AuthContext.User(req.id.value, req.name.value, req.image, None))
  {
    ServerAuth.ProviderFailureKeepsRow(req, store, faults, hasher, salt, p);
    assert ServerAuth.StreamCreateFailed != ServerAuth.UserExists by {
      assert |ServerAuth.StreamCreateFailed| != |ServerAuth.UserExists|;
    }
  }

  /** A successful backend login, followed by a successful connection,
      stores exactly the user it sets, connects both clients with the
      backend's token, and logging out clears all of it. */
  lemma BackendLoginThenLogout(s: AuthContext.Session, id: JsString,
                               u: ServerAuth.PublicUser, token: JsString)
    requires |token| > 0
    ensures var env := AuthContext.Env(true, AuthContext.Connected);
            var st := AuthContext.Login(s, id, AuthContext.Ok(u, token), env);
            var user := AuthContext.User(u.id, u.name, u.image, Some(token));
            && st.thrown.None?
            && st.session.user == Some(user)
            && st.session.stored == AuthContext.StoredUser(user)
            && st.session.client == Some(AuthContext.Connection(u.id, AuthContext.BackendToken(token)))
            && st.session.videoClient == st.session.client
            && AuthContext.Logout(st.session) == AuthContext.SignedOut
  {
  }

  /** The request body the context posts for a call of the form
      (`{ id, password }` or `{ id, name, password, image }`). */
  function LoginRequestOf(id: JsString, password: JsString): ServerAuth.LoginRequest {
    ServerAuth.LoginRequest(Some(id), Some(password))
  }

  function RegisterRequestOf(id: JsString, name: JsString, password: JsString,
                             image: JsString): ServerAuth.RegisterRequest {
    ServerAuth.RegisterRequest(Some(id), Some(name), Some(password), Some(image))
  }

  /** Signing up through the form with a fresh username and then signing in
      through the form with the same username and password reaches the
      account just created: both requests succeed, and the login returns the
      registered id, name and image. */
  lemma FormSignUpThenSignIn(username: JsString, password: JsString,
                             fullName: JsString, avatarUrl: JsString,
                             store: ServerAuth.Store, hasher: ServerAuth.Hasher,
                             salt: JsString, p: ServerAuth.Provider, p2: ServerAuth.Provider)
    requires ServerAuth.Sound(hasher)
    requires |username| > 0 && |password| > 0
    requires AuthPage.DeriveId(username) !in store
    requires ServerAuth.Working(p) && ServerAuth.Working(p2)
    ensures var up := AuthPage.Submit(AuthPage.Form(AuthPage.SignUp, username, password, fullName, avatarUrl));
            var r := ServerAuth.Register(RegisterRequestOf(up.id, up.name, up.password, up.image),
                                         store, ServerAuth.NoFaults, hasher, salt, p);
            var signIn := AuthPage.Submit(AuthPage.Form(AuthPage.SignIn, username, password, fullName, avatarUrl));
            var l := ServerAuth.Login(LoginRequestOf(signIn.id, signIn.password),
                                      r.store, ServerAuth.NoFaults, hasher, p2);
            && r.response.status == 200
            && l.response.status == 200
            && l.response.body.user == ServerAuth.PublicUser(up.id, up.name, Some(up.image))
  {
    var up := AuthPage.Submit(AuthPage.Form(AuthPage.SignUp, username, password, fullName, avatarUrl));
    assert |up.name| > 0;
    assert |up.image| > 0 by {
      if |avatarUrl| == 0 {
        assert up.image[..|Dicebear.SeedPrefix|] == Dicebear.SeedPrefix;
      }
    }
    var req := RegisterRequestOf(up.id, up.name, up.password, up.image);
    ServerAuth.RegisterThenLogin(req, store, ServerAuth.NoFaults, hasher, salt, p,
                                 ServerAuth.NoFaults, p2);
  }
}

=== FILE: js_text.dfy ===
/** JavaScript strings as the source manipulates them: sequences of UTF-16
    code units, with the handful of built-in operations the handlers and views use
    (`toLowerCase`, `toUpperCase`, the `\s` character class, `||` on
    strings and the decimal rendering of a non-negative integer). */
module JsText {
  import opened Optional

  /** One UTF-16 code unit; `length`, indexing and `substring` count these. */
  type CodeUnit = u: int | 0 <= u < 0x1_0000

  type JsString = seq<CodeUnit>

  /** A string literal of the source, all of whose characters lie in the
      Basic Multilingual Plane and so take one code unit each (a character
      outside it, which no literal passed here contains, becomes U+FFFD). */
  function Lit(s: string): (r: JsString)
    ensures |r| == |s|
  {
    seq(|s|, i requires 0 <= i < |s| => if (s[i] as int) < 0x1_0000 then s[i] as int else 0xFFFD)
  }

  /** JavaScript truthiness of a possibly-undefined string: `undefined` and
      `''` are falsy, every other string is truthy. */
  predicate Truthy(s: Option<JsString>) {
    s.Some? && |s.value| > 0
  }

  /** `a || b` where `a` is a possibly-undefined string and `b` a string. */
  function Or(a: Option<JsString>, b: JsString): (r: JsString)
    ensures Truthy(a) ==> r == a.value
    ensures !Truthy(a) ==> r == b
  {
    if Truthy(a) then a.value else b
  }

  /** Membership in the ECMAScript `\s` class: the WhiteSpace and
      LineTerminator code points of section 22.2.2.9 of ECMA-262 (all of them
      lie in the Basic Multilingual Plane, so one code unit each). */
  predicate IsWhitespace(u: CodeUnit) {
    || u == 0x09 || u == 0x0A || u == 0x0B || u == 0x0C || u == 0x0D
    || u == 0x20 || u == 0xA0 || u == 0x1680
    || (0x2000 <= u <= 0x200A)
    || u == 0x2028 || u == 0x2029 || u == 0x202F || u == 0x205F
    || u == 0x3000 || u == 0xFEFF
  }

  predicate HasNoWhitespace(s: JsString) {
    forall i :: 0 <= i < |s| ==> !IsWhitespace(s[i])
  }

  predicate AllWhitespace(s: JsString) {
    forall i :: 0 <= i < |s| ==> IsWhitespace(s[i])
  }

  predicate IsUpperAscii(u: CodeUnit) { 0x41 <= u <= 0x5A }

  predicate IsLowerAscii(u: CodeUnit) { 0x61 <= u <= 0x7A }

  predicate HasNoLowerAscii(s: JsString) {
    forall i :: 0 <= i < |s| ==> !IsLowerAscii(s[i])
  }

  predicate HasNoUpperAscii(s: JsString) {
    forall i :: 0 <= i < |s| ==> !IsUpperAscii(s[i])
  }

  /** `toLowerCase` on one code unit, for the ASCII letters. */
  function LowerUnit(u: CodeUnit): (r: CodeUnit)
    ensures !IsUpperAscii(r)
    ensures IsWhitespace(r) <==> IsWhitespace(u)
    ensures !IsUpperAscii(u) ==> r == u
    ensures IsUpperAscii(u) ==> IsLowerAscii(r) && r == u + 0x20
  {
    if IsUpperAscii(u) then u + 0x20 else u
  }

  /** `toUpperCase` on one code unit, for the ASCII letters. */
  function UpperUnit(u: CodeUnit): (r: CodeUnit)
    ensures !IsLowerAscii(r)
    ensures !IsLowerAscii(u) ==> r == u
    ensures IsLowerAscii(u) ==> IsUpperAscii(r) && r == u - 0x20
  {
    if IsLowerAscii(u) then u - 0x20 else u
  }

  /** Lowering and raising are inverse on the letters: each capital has
      exactly one small letter and back. */
  lemma CaseRoundTrip(u: CodeUnit)
    ensures IsUpperAscii(u) ==> UpperUnit(LowerUnit(u)) == u
    ensures IsLowerAscii(u) ==> LowerUnit(UpperUnit(u)) == u
  {
  }

  function LowerCase(s: JsString): (r: JsString)
    ensures |r| == |s|
    ensures forall i :: 0 <= i < |s| ==> r[i] == LowerUnit(s[i])
  {
    seq(|s|, i requires 0 <= i < |s| => LowerUnit(s[i]))
  }

  function UpperCase(s: JsString): (r: JsString)
    ensures |r| == |s|
    ensures forall i :: 0 <= i < |s| ==> r[i] == UpperUnit(s[i])
  {
    seq(|s|, i requires 0 <= i < |s| => UpperUnit(s[i]))
  }

  predicate IsDigit(u: CodeUnit) { 0x30 <= u <= 0x39 }

  /** `String(n)` for a non-negative integer: its decimal digits, most
      significant first, without leading zeros. */
  function Decimal(n: nat): (r: JsString)
    ensures |r| >= 1
    ensures forall i :: 0 <= i < |r| ==> IsDigit(r[i])
    decreases n
  {
    if n < 10 then [0x30 + n] else Decimal(n / 10) + [0x30 + n % 10]
  }

  /** The value of a string of decimal digits (the inverse of `Decimal`). */
  function DigitsValue(s: JsString): nat
    requires forall i :: 0 <= i < |s| ==> IsDigit(s[i])
  {
    if |s| == 0 then 0
    else
      assert IsDigit(s[|s| - 1]);
      DigitsValue(s[..|s| - 1]) * 10 + (s[|s| - 1] as int - 0x30)
  }

  /** Reading back the decimal rendering of `n` gives `n`: no two counts
      render the same. */
  lemma {:induction false} DecimalRoundTrip(n: nat)
    ensures DigitsValue(Decimal(n)) == n
    decreases n
  {
    if n >= 10 {
      var d := Decimal(n);
      assert d[..|d| - 1] == Decimal(n / 10);
      DecimalRoundTrip(n / 10);
    }
  }

  /** The rendering has a leading zero only for zero itself, and a count
      below 100 takes at most two digits. */
  lemma {:induction false} DecimalShape(n: nat)
    ensures Decimal(n)[0] == 0x30 <==> n == 0
    ensures n < 10 <==> |Decimal(n)| == 1
    ensures n < 100 ==> |Decimal(n)| <= 2
    decreases n
  {
    if n >= 10 {
      DecimalShape(n / 10);
    }
  }
}

=== FILE: optional.dfy ===
/** A property that may be missing: `None` plays the part of JavaScript's
    `undefined`, `Some(v)` holds a value that is there. */
module Optional {

  datatype Option<T> = None | Some(value: T) {

    /** `x ?? fallback`: the value when there is one. */
    function OrElse(fallback: T): T {
      if Some? then value else fallback
    }
  }
}

=== FILE: server_auth.dfy ===
/** The two request handlers of the authentication service, `register` and
    `login`, as pure functions from a request and the state of the `users`
    table to a response, the table afterwards and the calls made to the chat
    provider.

    Everything the handlers cannot decide themselves is a parameter: whether
    the database reports an error, bcrypt (an abstract `Hasher`, with the
    salt `genSalt` would draw passed in), and the chat provider (whether its
    credentials are configured, whether `upsertUser` or `createToken` fails,
    and which token it mints). Requests are handled one at a time. */
module ServerAuth {
  import opened Optional
  import opened JsText

  /** A row of the `users` table; the table is keyed by `id`. */
  datatype UserRow = UserRow(name: JsString, passwordHash: JsString, image: JsString)

  type Store = map<JsString, UserRow>

  /** bcrypt: `hash(password, salt)` and `compare(password, hash)`. */
  datatype Hasher = Hasher(
    hash: (JsString, JsString) -> JsString,
    compare: (JsString, JsString) -> bool)

  /** The one fact about bcrypt the handlers rely on: a password matches
      every hash made from it, whatever the salt. */
  ghost predicate Sound(h: Hasher) {
    forall p, salt :: h.compare(p, h.hash(p, salt))
  }

  /** The chat provider's server client as the handlers see it. */
  datatype Provider = Provider(
    configured: bool,               // both STREAM_API_KEY and STREAM_API_SECRET are set
    upsertError: Option<JsString>,  // the message `upsertUser` rejects with, if it does
    tokenError: Option<JsString>,   // the message `createToken` throws, if it does
    mint: JsString -> JsString)     // the token `createToken` returns for a user id

  /** Whether the two database calls of a request report an error. */
  datatype Faults = Faults(selectFails: bool, insertFails: bool)

  const NoFaults := Faults(false, false)

  /** Request bodies; a field that is absent is `None`. */
  datatype RegisterRequest = RegisterRequest(
    id: Option<JsString>, name: Option<JsString>,
    password: Option<JsString>, image: Option<JsString>)

  datatype LoginRequest = LoginRequest(id: Option<JsString>, password: Option<JsString>)

  /** The user object of a successful response: it has no field for the hash. */
  datatype PublicUser = PublicUser(id: JsString, name: JsString, image: Option<JsString>)

  datatype Body =
    | ErrorBody(error: JsString, details: Option<JsString>)
    | SessionBody(user: PublicUser, token: JsString)

  datatype Response = Response(status: int, body: Body)

  /** A call made on the provider's server client, in the order made. */
  datatype ProviderCall = UpsertUser(profile: PublicUser) | CreateToken(userId: JsString)

  datatype Outcome = Outcome(response: Response, store: Store, calls: seq<ProviderCall>)

  const MissingFields := Lit("Missing required fields")
  const MissingCredentials := Lit("Missing credentials")
  const DatabaseError := Lit("Database error")
  const UserExists := Lit("User already exists")
  const CreateFailed := Lit("Failed to create user")
  const StreamCreateFailed := Lit("Failed to create user in Stream")
  const InvalidCredentials := Lit("Invalid credentials")
  const TokenFailed := Lit("Failed to generate token")
  const NotConfigured := Lit("Stream credentials not configured")

  function Fail(status: int, error: JsString): Response {
    Response(status, ErrorBody(error, None))
  }

  /** What the provider part of a handler ends in: a token, or the message
      of the error thrown, together with the calls made on the way. */
  datatype Minting =
    | Minted(token: JsString, calls: seq<ProviderCall>)
    | Threw(message: JsString, calls: seq<ProviderCall>)

  /** `getStreamClient()`, then `upsertUser(profile)` when `upsert` is set,
      then `createToken(id)`; the first of these to throw ends the sequence. */
  function MintToken(p: Provider, upsert: Option<PublicUser>, id: JsString): (m: Minting)
    ensures m.Minted? <==>
              p.configured && (upsert.Some? ==> p.upsertError.None?) && p.tokenError.None?
    ensures m.Minted? ==> m.token == p.mint(id)
    ensures !p.configured ==> m == Threw(NotConfigured, [])
    // the first call to throw ends the sequence
    ensures p.configured ==>
              m.calls == (if upsert.Some? then [UpsertUser(upsert.value)] else [])
                         + (if upsert.Some? && p.upsertError.Some? then [] else [CreateToken(id)])
    ensures p.configured && upsert.Some? && p.upsertError.Some? ==>
              m.Threw? && m.message == p.upsertError.value
    ensures p.configured && (upsert.Some? ==> p.upsertError.None?) && p.tokenError.Some? ==>
              m.Threw? && m.message == p.tokenError.value
    ensures forall i :: 0 <= i < |m.calls| ==>
              m.calls[i] == CreateToken(id) || (upsert.Some? && m.calls[i] == UpsertUser(upsert.value))
  {
    if !p.configured then Threw(NotConfigured, [])
    else
      var upserted := if upsert.Some? then [UpsertUser(upsert.value)] else [];
      if upsert.Some? && p.upsertError.Some? then Threw(p.upsertError.value, upserted)
      else if p.tokenError.Some? then Threw(p.tokenError.value, upserted + [CreateToken(id)])
      else Minted(p.mint(id), upserted + [CreateToken(id)])
  }

  /** `register` (server/src/handlers/auth.ts:15-61). */
  function Register(req: RegisterRequest, store: Store, faults: Faults,
                    hasher: Hasher, salt: JsString, p: Provider): (o: Outcome)
    // validation comes first and has no effect
    ensures o.response.status == 400 <==>
              !(Truthy(req.id) && Truthy(req.name) && Truthy(req.password))
    ensures o.response.status == 400 ==>
              o.response == Fail(400, MissingFields) && o.store == store && o.calls == []
    // the duplicate check compares ids exactly and has no effect
    ensures o.response.status == 409 <==>
              Truthy(req.id) && Truthy(req.name) && Truthy(req.password)
              && !faults.selectFails && req.id.value in store
    ensures o.response.status == 409 ==>
              o.response == Fail(409, UserExists) && o.store == store && o.calls == []
    // a row that was there stays, with the same contents
    ensures forall k :: k in store ==> k in o.store && o.store[k] == store[k]
    // at most the requested id is added, and only with the submitted fields
    ensures o.store != store ==>
              && req.id.Some? && req.id.value !in store
              && o.store == store[req.id.value := UserRow(req.name.value,
                                                          hasher.hash(req.password.value, salt),
                                                          Or(req.image, []))]
    // the two database errors answer 500 with no effect
    ensures ValidRegister(req) && faults.selectFails ==>
              o == Outcome(Fail(500, DatabaseError), store, [])
    ensures ValidRegister(req) && !faults.selectFails && req.id.value !in store && faults.insertFails ==>
              o == Outcome(Fail(500, CreateFailed), store, [])
    // a session exactly when every step succeeds
    ensures o.response.status == 200 <==>
              && ValidRegister(req) && !faults.selectFails && req.id.value !in store
              && !faults.insertFails && Working(p)
    ensures o.response.status in {200, 400, 409, 500}
    ensures o.response.status == 200 <==> o.response.body.SessionBody?
  {
    if !(Truthy(req.id) && Truthy(req.name) && Truthy(req.password)) then
      Outcome(Fail(400, MissingFields), store, [])
    else if faults.selectFails then
      Outcome(Fail(500, DatabaseError), store, [])
    else if req.id.value in store then
      Outcome(Fail(409, UserExists), store, [])
    else if faults.insertFails then
      Outcome(Fail(500, CreateFailed), store, [])
    else
      var id := req.id.value;
      var row := UserRow(req.name.value, hasher.hash(req.password.value, salt), Or(req.image, []));
      var store' := store[id := row];
      var echoed := PublicUser(id, req.name.value, req.image);
      var m := MintToken(p, Some(echoed), id);
      match m
      case Minted(token, calls) =>
        Outcome(Response(200, SessionBody(echoed, token)), store', calls)
      case Threw(message, calls) =>
        Outcome(Response(500, ErrorBody(StreamCreateFailed, Some(message))), store', calls)
  }

  /** `login` (server/src/handlers/auth.ts:63-94). */
  function Login(req: LoginRequest, store: Store, faults: Faults,
                 hasher: Hasher, p: Provider): (o: Outcome)
    ensures o.store == store
    ensures o.response.status == 400 <==> !(Truthy(req.id) && Truthy(req.password))
    ensures o.response.status == 400 ==> o.response == Fail(400, MissingCredentials) && o.calls == []
    // an unknown id and a wrong password are told apart by nothing in the response
    ensures o.response.status == 401 <==>
              && Truthy(req.id) && Truthy(req.password) && !faults.selectFails
              && (req.id.value in store ==>
                    !hasher.compare(req.password.value, store[req.id.value].passwordHash))
    ensures o.response.status == 401 ==> o.response == Fail(401, InvalidCredentials) && o.calls == []
    // a session is only handed out for a stored row whose hash the password matches,
    // and it carries that row's fields
    ensures o.response.body.SessionBody? ==>
              && o.response.status == 200
              && req.id.Some? && req.id.value in store
              && hasher.compare(req.password.value, store[req.id.value].passwordHash)
              && o.response.body.user == PublicUser(req.id.value, store[req.id.value].name,
                                                    Some(store[req.id.value].image))
              && o.response.body.token == p.mint(req.id.value)
    // a stored id with a matching password gets a session exactly when the
    // database answers and the provider mints a token
    ensures Truthy(req.id) && Truthy(req.password) ==>
              (o.response.status == 200 <==>
                 && !faults.selectFails && req.id.value in store
                 && hasher.compare(req.password.value, store[req.id.value].passwordHash)
                 && p.configured && p.tokenError.None?)
    ensures Truthy(req.id) && Truthy(req.password) && faults.selectFails ==>
              o == Outcome(Fail(500, DatabaseError), store, [])
    ensures Truthy(req.id) && Truthy(req.password) && !faults.selectFails
            && req.id.value in store
            && hasher.compare(req.password.value, store[req.id.value].passwordHash)
            && !(p.configured && p.tokenError.None?) ==>
              o.response == Response(500, ErrorBody(TokenFailed,
                                                    Some(if !p.configured then NotConfigured
                                                         else p.tokenError.value)))
    // the only provider call a login makes is `createToken`: the user is not upserted again
    ensures forall i :: 0 <= i < |o.calls| ==> o.calls[i] == CreateToken(req.id.value)
    ensures o.response.status in {200, 400, 401, 500}
    ensures o.response.status == 200 <==> o.response.body.SessionBody?
  {
    if !(Truthy(req.id) && Truthy(req.password)) then
      Outcome(Fail(400, MissingCredentials), store, [])
    else if faults.selectFails then
      Outcome(Fail(500, DatabaseError), store, [])
    else if req.id.value !in store then
      Outcome(Fail(401, InvalidCredentials), store, [])
    else
      var id := req.id.value;
      var row := store[id];
      if !hasher.compare(req.password.value, row.passwordHash) then
        Outcome(Fail(401, InvalidCredentials), store, [])
      else
        var m := MintToken(p, None, id);
        match m
        case Minted(token, calls) =>
          Outcome(Response(200, SessionBody(PublicUser(id, row.name, Some(row.image)), token)),
                  store, calls)
        case Threw(message, calls) =>
          Outcome(Response(500, ErrorBody(TokenFailed, Some(message))), store, calls)
  }

  /** The provider accepts the upsert and mints a token. */
  predicate Working(p: Provider) {
    p.configured && p.upsertError.None? && p.tokenError.None?
  }

  predicate ValidRegister(req: RegisterRequest) {
    Truthy(req.id) && Truthy(req.name) && Truthy(req.password)
  }

  /** Once the duplicate check and the insert pass, exactly one row is added,
      holding the hash and `image || ''`; the response then depends only on
      the provider, and echoes the image as submitted. */
  lemma RegisterInserts(req: RegisterRequest, store: Store, faults: Faults,
                        hasher: Hasher, salt: JsString, p: Provider)
    requires ValidRegister(req) && req.id.value !in store
    requires !faults.selectFails && !faults.insertFails
    ensures var o := Register(req, store, faults, hasher, salt, p);
            && o.store == store[req.id.value := UserRow(req.name.value,
                                                        hasher.hash(req.password.value, salt),
                                                        Or(req.image, []))]
            && |o.store| == |store| + 1
            && (Working(p) ==>
                  && o.response == Response(200, SessionBody(PublicUser(req.id.value, req.name.value, req.image),
                                                             p.mint(req.id.value)))
                  && o.calls == [UpsertUser(PublicUser(req.id.value, req.name.value, req.image)),
                                 CreateToken(req.id.value)])
            && (!Working(p) ==>
                  o.response.status == 500 && o.response.body.ErrorBody?
                  && o.response.body.error == StreamCreateFailed
                  && o.response.body.details.Some?)
  {
  }

  /** A provider failure after the insert is reported as a server error but
      the row stays: registration is not transactional. */
  lemma ProviderFailureKeepsRow(req: RegisterRequest, store: Store, faults: Faults,
                                hasher: Hasher, salt: JsString, p: Provider)
    requires ValidRegister(req) && req.id.value !in store
    requires !faults.selectFails && !faults.insertFails
    requires !Working(p)
    ensures var o := Register(req, store, faults, hasher, salt, p);
            && o.response.status == 500
            && o.response.body == ErrorBody(StreamCreateFailed,
                                            Some(if !p.configured then NotConfigured
                                                 else if p.upsertError.Some? then p.upsertError.value
                                                 else p.tokenError.value))
            && req.id.value in o.store
  {
  }

  /** Registering an id a second time is refused with 409, whether the first
      registration succeeded or failed at the provider after its insert. */
  lemma RegisterTwice(first: RegisterRequest, second: RegisterRequest, store: Store,
                      faults1: Faults, faults2: Faults, hasher: Hasher,
                      salt1: JsString, salt2: JsString, p1: Provider, p2: Provider)
    requires ValidRegister(first) && ValidRegister(second) && second.id == first.id
    requires !faults2.selectFails
    requires var o := Register(first, store, faults1, hasher, salt1, p1);
             o.response.status == 200
             || (o.response.body.ErrorBody? && o.response.body.error == StreamCreateFailed)
    ensures var o := Register(first, store, faults1, hasher, salt1, p1);
            var o2 := Register(second, o.store, faults2, hasher, salt2, p2);
            o2.response == Fail(409, UserExists) && o2.store == o.store && o2.calls == []
  {
    var o := Register(first, store, faults1, hasher, salt1, p1);
    assert first.id.value in o.store by {
      assert Fail(409, UserExists).body.error != StreamCreateFailed by {
        assert UserExists[0] != StreamCreateFailed[0];
      }
      assert Fail(400, MissingFields).body.error != StreamCreateFailed by {
        assert MissingFields[0] != StreamCreateFailed[0];
      }
      assert Fail(500, DatabaseError).body.error != StreamCreateFailed by {
        assert DatabaseError[0] != StreamCreateFailed[0];
      }
      assert Fail(500, CreateFailed).body.error != StreamCreateFailed by {
        assert |CreateFailed| != |StreamCreateFailed|;
      }
    }
  }

  /** An unknown id and a known id with the wrong password get the same
      response and cause no provider call: the response does not disclose
      whether the id exists. */
  lemma LoginHidesUnknownIds(unknown: LoginRequest, known: LoginRequest, store: Store,
                             faults: Faults, hasher: Hasher, p: Provider)
    requires Truthy(unknown.id) && Truthy(unknown.password) && unknown.id.value !in store
    requires Truthy(known.id) && Truthy(known.password) && known.id.value in store
    requires !hasher.compare(known.password.value, store[known.id.value].passwordHash)
    requires !faults.selectFails
    ensures Login(unknown, store, faults, hasher, p) == Login(known, store, faults, hasher, p)
    ensures Login(unknown, store, faults, hasher, p).response == Fail(401, InvalidCredentials)
  {
  }

  /** Logging in with the id and password just registered returns the same
      id and name; the image is the stored `image || ''`, which equals the
      image registration echoed whenever one was submitted. */
  lemma RegisterThenLogin(req: RegisterRequest, store: Store, faults: Faults, hasher: Hasher,
                          salt: JsString, p: Provider, faults2: Faults, p2: Provider)
    requires Sound(hasher)
    requires Register(req, store, faults, hasher, salt, p).response.status == 200
    requires !faults2.selectFails && p2.configured && p2.tokenError.None?
    ensures var r := Register(req, store, faults, hasher, salt, p);
            var l := Login(LoginRequest(req.id, req.password), r.store, faults2, hasher, p2);
            && l.response.status == 200
            && l.response.body.user.id == r.response.body.user.id
            && l.response.body.user.name == r.response.body.user.name
            && l.response.body.user.image == Some(Or(req.image, []))
            && (Truthy(req.image) ==> l.response.body.user.image == r.response.body.user.image)
            && l.response.body.token == p2.mint(req.id.value)
  {
    var r := Register(req, store, faults, hasher, salt, p);
    var id := req.id.value;
    assert r.store[id].passwordHash == hasher.hash(req.password.value, salt);
    assert hasher.compare(req.password.value, hasher.hash(req.password.value, salt));
  }

  /** Ids are compared exactly: registering "CarlOS" stores "CarlOS", a
      second registration of "CarlOS" is refused, but "carlos" is a different
      user, unknown to login and free to register. */
  lemma IdsAreNotNormalised(hasher: Hasher, salt: JsString, p: Provider)
    requires Working(p)
    ensures var req := RegisterRequest(Some(Lit("CarlOS")), Some(Lit("Carlos")), Some(Lit("secret123")), None);
            var o := Register(req, map[], NoFaults, hasher, salt, p);
            && o.response == Response(200, SessionBody(PublicUser(Lit("CarlOS"), Lit("Carlos"), None),
                                                       p.mint(Lit("CarlOS"))))
            && o.store.Keys == {Lit("CarlOS")}
            && Register(req, o.store, NoFaults, hasher, salt, p).response == Fail(409, UserExists)
            && Login(LoginRequest(Some(Lit("carlos")), Some(Lit("secret123"))), o.store, NoFaults, hasher, p).response
               == Fail(401, InvalidCredentials)
            && Register(req.(id := Some(Lit("carlos"))), o.store, NoFaults, hasher, salt, p).response.status == 200
  {
    assert Lit("carlos") != Lit("CarlOS") by {
      assert Lit("carlos")[0] != Lit("CarlOS")[0];
    }
  }
}
